=== FILE: README.md ===
# git-eq in Dafny

git-eq is an "emergency commit" tool. Run inside a git repository, it:

1. reads the current branch, that branch's remote and the user's email from git;
2. checks out a new branch named `earthquake/<branch>-<email>-<epoch seconds>`;
3. adds and commits everything when `git status --porcelain` prints anything;
4. pushes the new branch to the remote.

Before every mutating git command it asks git for the repository's top-level directory. If `<root>/.git/index.lock` exists, it waits for a filesystem watcher to report a removal. The commit message is the first command-line argument, or a fixed default when there is none.

This project models that core as pure functions over a scripted environment and proves what the runs guarantee.

- **Environment** (`Git.Env`). The environment is indexed by the position of an action in the trace of the run:
  - what the git process started at that position did: it could not be spawned, could not be waited for, or exited with some status and standard output;
  - whether the lock file exists when probed there;
  - how the watcher behaves for a wait recorded there;
  - the clock, either before the Unix epoch or some whole number of seconds after it.
- **Run** (`Git.Run`). A run is a trace of actions and a status. The actions are a captured query, a spawned command, a lock probe, or a lock wait. The status is either done, or halted by one of:
  - an error returned to the caller: spawn, wait, invalid UTF-8 or clock;
  - a panic;
  - a wait that has not ended by the end of the script.
- **Captured output** is checked as strict UTF-8 (`Utf8.Decode`, with an encoder and a round trip). It then goes through Rust's `trim_end`, which uses the full `char::is_whitespace` set (`Text.TrimEnd`).
- **Epoch**. The branch name renders the epoch in canonical decimal (`Text.Decimal`, which has an inverse).

Modules:
- `Utf8` and `Text`: decoding, trimming and decimal rendering.
- `FileWatcher`: the lock-wait loop.
- `Config`: the argument list.
- `Git`: the command runner and the trace predicates.
- `Earthquake`: the procedure.
- `EarthquakeProperties`, `RunProperties`, `ObservationProperties` and `BranchNameProperties`: what the runs guarantee.

Where a reader might expect otherwise, the model follows the code:
- An empty remote or an empty email is not rejected. It is embedded in the branch name or passed to `push` as it is.
- Captured output loses all trailing whitespace, not only one line terminator.
- Arguments after the commit message are ignored silently, with no warning.
- The lock wait returns on a removal notice for any path, not only for the lock file.
- Failure to create the watcher is a panic (`unwrap`), not a return.

## Model

| member | source | states |
|---|---|---|
| Config.New | src/config.rs:13-23 | with at least two arguments the message is the second one; with fewer it is the default message |
| Config.ExtraArgumentsIgnored | src/config.rs:17-22 | appending any arguments after the second changes nothing |
| Config.ProgramPathIgnored | src/config.rs:14-15 | the first argument, the program path, never influences the configuration |
| Config.EmptyMessageKept | src/config.rs:17-18 | an empty second argument becomes the empty message, not the default |
| Config.DefaultWithoutMessage | src/config.rs:3-19 | with zero or one argument the message is "Earthquake!!! This is an emergency commit" |
| FileWatcher.Listen | src/file_watcher.rs:27-36 | the loop consumes exactly the receptions up to the first removal notice or channel error, and ends as that reception dictates; without one it is still waiting after consuming everything |
| FileWatcher.WaitUntilDeleted | src/file_watcher.rs:10-38 | a watcher that cannot be created panics; a refused watch returns having consumed nothing; otherwise the outcome, and what was consumed, is exactly that of the receive loop over the incoming receptions |
| FileWatcher.LaterReceptionsIgnored | src/file_watcher.rs:28-34 | once the loop has stopped, receptions scripted after the stop change nothing |
| FileWatcher.NonStoppingSkipped | src/file_watcher.rs:27-33 | events that are not removal notices are consumed and skipped, and waiting continues |
| FileWatcher.RemovalOfAnyPathReturns | src/file_watcher.rs:30-31 | a removal notice for any path, not only the watched one, ends the wait right after it |
| FileWatcher.WaitReturnsIff | src/file_watcher.rs:16-35 | the wait neither panics nor keeps waiting if and only if the watcher is created and either the watch is refused or some reception stops the loop |
| Utf8.Decode | src/lib.rs:95 | a decoded text has at most one character per byte and at least one per four bytes; non-empty input decodes only if its first scalar value does, and that value comes first |
| Utf8.DecodeEncode | src/lib.rs:95 | strict UTF-8 decoding of the encoding of any text gives that text back |
| Utf8.EncodeDecodeFirst | src/lib.rs:95 | the first scalar value decoding accepts re-encodes to exactly the bytes it was read from, so no overlong or otherwise irregular form is accepted |
| Utf8.EncodeDecode | src/lib.rs:95 | whatever strict decoding accepts re-encodes to exactly the input bytes; with DecodeEncode, decoding and encoding are inverse on well-formed input |
| Utf8.DecodeAfterChar | src/lib.rs:95 | after the encoding of one character, decoding succeeds exactly when the rest decodes, and puts that character in front |
| Utf8.InvalidByteRejected | src/lib.rs:95 | a byte 0xFF anywhere after well-formed text makes decoding fail |
| Text.TrimEnd | src/lib.rs:96 | the result is a prefix of the input that is empty or ends in non-whitespace, and only whitespace follows it |
| Text.TrimEndUnique | src/lib.rs:96 | those three facts determine the trimmed result |
| Text.TrimEndIdempotent | src/lib.rs:96 | trimming twice equals trimming once |
| Text.TrimEndTrailingWhitespace | src/lib.rs:96 | appending any whitespace, several line terminators included, does not change the result |
| Text.TrimEndClean | src/lib.rs:96 | text that already ends in non-whitespace is left as it is |
| Text.Decimal | src/lib.rs:19 | the epoch is rendered as a non-empty run of digits without a leading zero |
| Text.DecimalValueOfDecimal | src/lib.rs:19 | reading the rendered digits back yields the number |
| Text.DecimalInjective | src/lib.rs:19 | distinct epochs are rendered differently |
| Git.ReadGitInfo | src/lib.rs:94-97 | the result is an error exactly when the output is not valid UTF-8; otherwise it is the decoded text less its trailing whitespace |
| Git.ReadGitInfoOfText | src/lib.rs:94-97 | well-formed output reads back as its text with all trailing whitespace removed |
| Git.ReadGitInfoAcceptsEncodings | src/lib.rs:94-97 | output is accepted exactly when it is the UTF-8 encoding of some text, and that text then re-encodes to the output |
| Git.ReadGitInfoRejects | src/lib.rs:95 | output holding an invalid byte is the invalid-UTF-8 error |
| Git.ReadGitInfoIdempotent | src/lib.rs:94-97 | reading back a value already read gives the same value |
| Git.ReadGitInfoExamples | src/lib.rs:96 | "main\n" and "main\r\n" both read as "main" |
| Git.ReadGitInfoBlankExamples | src/lib.rs:96 | a run of trailing blanks and newlines is removed, and a blank line reads as empty |
| Git.Info | src/lib.rs:79-82 | a git process that could not be started is a spawn error, one that could not be waited for a wait error; once git has exited, whatever its status, its output is read by `read_git_info` (valid UTF-8 required, trailing whitespace removed) |
| Git.SpawnStatus | src/lib.rs:74-76 | a spawned command succeeds exactly when git could be started and waited for, whatever its exit status; a failed start halts with the spawn error, a failed wait with the wait error |
| Git.OutputGitCommand | src/lib.rs:79-82 | a captured query appends exactly itself to the trace, with no lock action before it; once git has exited, whatever its exit status, the result is `read_git_info` of its standard output, and otherwise it is a spawn or wait error |
| Git.LockPath | src/lib.rs:86 | the lock path is the printed root, then a `/` exactly when the root is non-empty and does not already end in one, then `.git/index.lock` |
| Git.JoinPath | src/lib.rs:86 | joining keeps the base as a prefix and the relative path as a suffix, inserting a separator only when the base is non-empty and does not end in one |
| Git.WaitGitLockReleased | src/lib.rs:84-92 | the only error the lock wait returns is the failure of the top-level query, which then is its only action |
| Git.WaitGuarded | src/lib.rs:84-92 | the lock wait keeps the lock discipline and, when it finishes, ends in a probe that found no lock or in a wait for the lock |
| Git.WaitCommands | src/lib.rs:84-92 | the lock wait issues no git command except the top-level query |
| Git.WaitSteps | src/lib.rs:84-92 | the lock wait only appends to the trace and stops, if at all, at its own last action |
| Git.SpawnGitCommand | src/lib.rs:72-77 | a mutating command that succeeds has just spawned git with its arguments |
| Git.SpawnSteps | src/lib.rs:72-77 | a mutating command stops, if at all, at its own last action: a failed query, a panicking or unending wait, or a failed spawn or wait |
| Git.SpawnCommands | src/lib.rs:72-77 | a mutating command issues its own command at most once, and exactly once when it succeeds |
| Git.GuardedContiguous | src/lib.rs:72-92 | in a guarded trace a git command is followed by another command or the top-level query, that query by the lock probe, the probe by the wait or the spawn, and the wait by the spawn |
| Git.SpawnPending | src/lib.rs:72-76 | a mutating command whose trace ends inside its lock check did not succeed and issued nothing |
| Git.CheckEnds | src/lib.rs:84-92 | in a trace with unbroken lock checks, a top-level query is followed by the spawn two or three actions later, or the trace ends inside that lock check |
| Git.SpawnPreceded | src/lib.rs:72-92 | in a guarded trace each spawn follows the top-level query and a probe of `<root>/.git/index.lock`, with a wait on that lock in between exactly when the probe found it |
| Git.SpawnAfterLockCheck | src/lib.rs:72-92 | in addition, when the action before a spawn did not stop the run, a wait for the lock before it returned normally |
| Earthquake.BranchName | src/lib.rs:19 | no contract of its own: BranchNameProperties.BranchNameShape and EpochRecoverable state the shape of the name and what can be read back from it |
| Earthquake.ReadIdentity | src/lib.rs:36-47 | no contract of its own: EarthquakeProperties.IdentityTrace and IdentityPrefix state the order of the queries and the values returned |
| Earthquake.AddAndCommit | src/lib.rs:58-66 | no contract of its own: EarthquakeProperties.AddAndCommitCommands and AddAndCommitPrefix state the commands it issues |
| Earthquake.CommitAndPush | src/lib.rs:22-26 | no contract of its own: EarthquakeProperties.CommitAndPushCommands and CommitAndPushPrefix state the commands it issues |
| Earthquake.SaveChanges | src/lib.rs:21-26 | no contract of its own: EarthquakeProperties.SaveChangesCommands and SaveChangesPrefix state the commands it issues |
| Earthquake.EarthquakeProcedure | src/lib.rs:14-29 | no contract of its own: the RunProperties lemmas state where it stops, what precedes each mutating command, and the commands it issues |
| Earthquake.AnyUncommittedChanges | src/lib.rs:31-34 | changes are reported exactly when the trimmed status output is non-empty; a failed status query is passed on |
| EarthquakeProperties.IdentityTrace | src/lib.rs:15-17 | the identity queries come first, in order branch, remote of that branch, email; on success their results are the three values the run goes on with |
| EarthquakeProperties.IdentityPrefix | src/lib.rs:15-17 | whatever the outcome, the trace of the identity queries is a prefix of branch, remote of the printed branch, email |
| EarthquakeProperties.AddAndCommitCommands | src/lib.rs:58-66 | on success, add with `--all` is issued, then commit with `--no-gpg-sign --no-verify -m <message>` |
| EarthquakeProperties.AddAndCommitPrefix | src/lib.rs:58-66 | whatever the outcome, the commands issued are a prefix of add, commit |
| EarthquakeProperties.CommitAndPushCommands | src/lib.rs:22-26 | on success, add and commit are issued exactly when changes were found, then the push |
| EarthquakeProperties.CommitAndPushPrefix | src/lib.rs:22-26 | whatever the outcome, the commands issued are a prefix of add and commit when changes were found, then push |
| EarthquakeProperties.SpawnPrefix | src/lib.rs:72-77 | a mutating command adds at most itself to the commands issued so far |
| EarthquakeProperties.SaveChangesCommands | src/lib.rs:21-26 | on success the commands are checkout, status query, add and commit exactly when the status output is non-empty, then push |
| EarthquakeProperties.CheckoutPrefix | src/lib.rs:21 | the checkout adds at most itself to the commands, and exactly itself when it succeeds |
| EarthquakeProperties.AddAndCommitPending | src/lib.rs:58-66 | add and commit, ended inside a lock check, halted before the commit was issued |
| EarthquakeProperties.CommitAndPushPending | src/lib.rs:22-26 | a successful commit and push ends with the push; ended inside a lock check, it halted before the push was issued |
| EarthquakeProperties.SaveChangesPending | src/lib.rs:21-26 | a successful save ends with the push; ended inside a lock check, it halted before the checkout or, after the status query, before a spawn still to come in the plan that status selected |
| EarthquakeProperties.SaveChangesPrefix | src/lib.rs:21-26 | whatever the outcome, the commands issued are a prefix of checkout, status, then add and commit exactly when the status reply was non-empty, then push |
| EarthquakeProperties.ProcedureSteps | src/lib.rs:14-29 | the run only appends to its trace, and stops at the first failing action; a clock error comes after three settled queries |
| EarthquakeProperties.ProcedureGuarded | src/lib.rs:14-29 | every trace of a run keeps the lock discipline |
| RunProperties.RunStopsAtFirstHalt | src/lib.rs:14-28 | a successful run has no failing action; any other run ends at its first failing action, so nothing follows a failure and nothing before it is undone; the clock error occurs exactly when the identity queries succeed and the clock is before the epoch |
| RunProperties.SpawnsFollowLockCheck | src/lib.rs:72-92 | every mutating command of a run comes right after the top-level query and the probe of the lock under the printed root, and after a wait on the lock that returned normally exactly when the lock was found |
| RunProperties.LockChecksUnbroken | src/lib.rs:72-92 | in every run each lock check is one unbroken block: a captured query (lib.rs:79-82) is never followed by a lock action, the top-level query is followed by the probe, the probe by the wait or the spawn, the wait by the spawn, and no run ends on a probe |
| RunProperties.LockChecksGuardSpawns | src/lib.rs:14-29 | a successful run ends with a spawn (the push); a run that ends inside a lock check has halted there, at a point of the plan whose next command is a spawn (the checkout, or a later spawn of the plan the status reply selected), never a query or the end of the plan |
| RunProperties.LockCheckThenSpawn | src/lib.rs:72-92 | every top-level query of a run is followed by the spawn it guards, right after the probe or right after the wait; only a halted run that stopped inside that lock check lacks it, and then the spawn was the plan's next command |
| RunProperties.PlanSpawnAt | src/lib.rs:21-26 | in the plan the checkout and every command after the status query are spawns |
| RunProperties.SuccessfulRunOrder | src/lib.rs:15-26 | a successful run issues exactly the plan: branch, remote of that branch, email, checkout of the new branch, status, add and commit exactly when the status output is non-empty, and push of the same branch to the remote the remote query printed |
| RunProperties.RunCommandsFollowPlan | src/lib.rs:14-29 | every run, failed ones included, issues a prefix of that plan, built from what the identity queries printed; once past the status query, the status reply decides whether add and commit are in it |
| RunProperties.PlanEnds | src/lib.rs:19-26 | in the plan the checkout is the fourth command and the push of the same branch the last |
| RunProperties.SuccessfulRunEnds | src/lib.rs:19-26 | on success checkout is the fourth command and push the last, both with the same branch name |
| RunProperties.CooperativeActionSettles | src/lib.rs:72-92 | in a cooperative environment no action the lock discipline allows stops a run |
| RunProperties.CooperativeRunSucceeds | src/lib.rs:14-29 | when every git process exits with valid UTF-8 output, every wait for the lock returns and the clock is past the epoch, the run succeeds, whatever the exit statuses and whatever the queries print |
| RunProperties.EmptyValuesPassedOn | src/lib.rs:16-26 | with an empty remote and email a successful run checks out `earthquake/<branch>--<epoch>` and pushes it to the empty remote |
| RunProperties.EmptyEmailCommands | src/lib.rs:19-26 | with an empty email and remote, the planned checkout and push name `earthquake/<branch>--<epoch>` and the push names the empty remote |
| RunProperties.EmptyRemoteAndEmailUsed | src/lib.rs:16-19 | an empty remote and an empty email are not errors: such a run succeeds in a cooperative environment |
| ObservationProperties.StatusesAgree | src/lib.rs:74-81 | replies that differ only in exit status give the same status for both ways of running git |
| ObservationProperties.ExitStatusIgnored | src/lib.rs:72-82 | two environments that differ only in git's exit statuses produce the same run |
| BranchNameProperties.BranchNameShape | src/lib.rs:19 | the branch name starts with `earthquake/` and ends with a dash and the decimal epoch |
| BranchNameProperties.EpochRecoverable | src/lib.rs:19 | equal branch names have equal epochs and equal `<branch>-<email>` parts |
| BranchNameProperties.BranchAndEmailAmbiguous | src/lib.rs:19 | the split between branch and email is not recoverable: ("a-b", "c") and ("a", "b-c") give the same name |

## Left out

- Starting git processes (`Command::new("git")` with `output`, `spawn` and `wait`) is replaced by a scripted reply per trace position. Standard error and inherited standard output are not modelled.
- `lock_path.exists()` is a scripted boolean per probe. The real filesystem, and a lock that reappears between the wait and the spawn, are not modelled.
- The notify crate, its ten-second debounce and recursive watching are replaced by a finite script of receptions. A script that runs out stands for a wait that never ends.
- `SystemTime::now()` is a scripted clock already reduced to whole seconds.
- The error values in `Box<dyn Error>` are reduced to their kind (spawn, wait, invalid UTF-8, clock); their messages are left out.
- src/main.rs is not part of this model: printing and the exit code.
- Config.New: does not model the panic that `args.next()` raises on an argument that is not valid Unicode (src/config.rs:15, 17), because arguments are modelled as strings.
- The arguments are a sequence of strings.
- `Path::join` is modelled for Unix paths with a relative second part only.
- What git itself does to the repository is not modelled.
- RunProperties.CooperativeRunSucceeds: gives a sufficient condition for success, not a characterisation. Which failures stop a run is stated separately by RunStopsAtFirstHalt.

=== FILE: branch_name_properties.dfy ===
/**
 The shape of the emergency branch name
 `earthquake/<branch>-<email>-<epoch>`: the epoch is written in canonical
 decimal after the last dash, so it can be read back from the name; the
 branch and the email are not separated unambiguously, since either may
 itself contain a dash.
 */
module BranchNameProperties {

  import opened Text
  import opened Earthquake

  /** A dash followed by digits only ends a string in one way at most. */
  lemma DigitSuffixUnique(x: string, d: string, y: string, e: string)
    requires x + "-" + d == y + "-" + e
    requires AllDigits(d) && AllDigits(e)
    ensures d == e && x == y
  {
    var s := x + "-" + d;
    var t := y + "-" + e;
    assert s[|x|] == '-' && t[|y|] == '-';
    assert |x| == |y|;
    assert d == s[|x| + 1..];
    assert e == t[|y| + 1..];
    assert x == s[..|x|];
    assert y == t[..|y|];
  }

  /** The name starts with `earthquake/` and ends with a dash and the epoch. */
  lemma BranchNameShape(branch: string, email: string, epoch: nat)
    ensures var name := BranchName(branch, email, epoch);
      var d := Decimal(epoch);
      && "earthquake/" <= name
      && |name| > |d| + 12
      && name[|name| - |d| - 1] == '-'
      && name[|name| - |d|..] == d
      && AllDigits(name[|name| - |d|..])
  {
  }

  /** The epoch can be read back from the name: equal names have equal epochs,
      and the part before the epoch (the branch, a dash and the email) is equal
      too. */
  lemma EpochRecoverable(b1: string, e1: string, t1: nat, b2: string, e2: string, t2: nat)
    requires BranchName(b1, e1, t1) == BranchName(b2, e2, t2)
    ensures t1 == t2
    ensures b1 + "-" + e1 == b2 + "-" + e2
  {
    DigitSuffixUnique("earthquake/" + b1 + "-" + e1, Decimal(t1), "earthquake/" + b2 + "-" + e2, Decimal(t2));
    DecimalInjective(t1, t2);
    var p1 := "earthquake/" + b1 + "-" + e1;
    var p2 := "earthquake/" + b2 + "-" + e2;
    assert p1 == "earthquake/" + (b1 + "-" + e1);
    assert p2 == "earthquake/" + (b2 + "-" + e2);
    assert (b1 + "-" + e1) == p1[11..];
    assert (b2 + "-" + e2) == p2[11..];
  }

  /** The branch and the email are not recoverable: a dash may belong to
      either. */
  lemma BranchAndEmailAmbiguous(epoch: nat)
    ensures BranchName("a-b", "c", epoch) == BranchName("a", "b-c", epoch)
  {
    assert "earthquake/" + "a-b" + "-" + "c" == "earthquake/" + "a" + "-" + "b-c";
  }
}

=== FILE: config.dfy ===
/**
 Turning the process's argument list into the configuration of one run: the
 program path is skipped, the next argument (if any) is the commit message,
 and everything after it is ignored without comment.
 */
module Config {

  import opened Wrappers

  const DEFAULT_MESSAGE: string := "Earthquake!!! This is an emergency commit"

  datatype Config = Config(commitMessage: string)

  /** The process's argument iterator: the arguments not yet consumed. */
  datatype Args = Args(remaining: seq<string>) {

    /** `Iterator::next`: the next argument, if any, and the iterator after it. */
    function Next(): (r: (Option<string>, Args))
      ensures |remaining| == 0 ==> r.0 == None && r.1 == this
      ensures |remaining| > 0 ==> r.0 == Some(remaining[0]) && r.1.remaining == remaining[1..]
    {
      if |remaining| == 0 then (None, this)
      else (Some(remaining[0]), Args(remaining[1..]))
    }
  }

  /** `Config::new`: skip the program path, take the following argument as the
      message, or fall back to the default message when there is none. */
  function New(args: Args): (c: Config)
    ensures |args.remaining| >= 2 ==> c.commitMessage == args.remaining[1]
    ensures |args.remaining| < 2 ==> c.commitMessage == DEFAULT_MESSAGE
  {
    var (_, rest) := args.Next();
    var (message, _) := rest.Next();
    match message
    case Some(s) => Config(s)
    case None => Config(DEFAULT_MESSAGE)
  }

  /** Arguments after the second are ignored: appending any suffix changes nothing. */
  lemma ExtraArgumentsIgnored(args: seq<string>, extra: seq<string>)
    requires |args| >= 2
    ensures New(Args(args + extra)) == New(Args(args))
  {
  }

  /** The program path never influences the message. */
  lemma ProgramPathIgnored(path1: string, path2: string, rest: seq<string>)
    ensures New(Args([path1] + rest)) == New(Args([path2] + rest))
  {
    assert ([path1] + rest)[1..] == rest == ([path2] + rest)[1..];
  }

  /** An empty second argument is kept as an empty message, not replaced by the default. */
  lemma EmptyMessageKept(path: string, rest: seq<string>)
    ensures New(Args([path, ""] + rest)).commitMessage == ""
  {
  }

  /** With only the program path (or nothing at all) the default message is used. */
  lemma DefaultWithoutMessage(args: seq<string>)
    requires |args| <= 1
    ensures New(Args(args)) == Config(DEFAULT_MESSAGE)
  {
  }
}

=== FILE: earthquake.dfy ===
/**
 The earthquake procedure: query the current branch, its remote and the
 user's email, read the clock, check out `earthquake/<branch>-<email>-<epoch>`,
 add and commit everything if `git status --porcelain` printed anything, and
 push the new branch to the remote. The first step that fails ends the run;
 nothing already done is undone.
 */
module Earthquake {

  import opened Text
  import opened Git
  import Config

  const BRANCH_QUERY: seq<string> := ["branch", "--show-current"]
  const EMAIL_QUERY: seq<string> := ["config", "--get", "user.email"]
  const STATUS_QUERY: seq<string> := ["status", "--porcelain"]
  const ADD_ARGS: seq<string> := ["add", "--all"]

  /** The key holding the remote of `branch`: `branch.<branch>.remote`. */
  function RemoteQuery(branch: string): seq<string> {
    ["config", "--get", "branch." + branch + ".remote"]
  }

  function CheckoutArgs(name: string): seq<string> {
    ["checkout", "-b", name]
  }

  /** Commit bypassing GPG signing and the pre-commit hook. */
  function CommitArgs(message: string): seq<string> {
    ["commit", "--no-gpg-sign", "--no-verify", "-m", message]
  }

  function PushArgs(name: string, remote: string): seq<string> {
    ["push", "-u", remote, name]
  }

  /** `format!("earthquake/{current_branch}-{user_email}-{elapsed}")`. */
  function BranchName(branch: string, email: string, epoch: nat): string {
    "earthquake/" + branch + "-" + email + "-" + Decimal(epoch)
  }

  /** `any_uncommited_changes`: the trimmed status output is non-empty. */
  function AnyUncommittedChanges(env: Env, tr: seq<Action>): (r: Run<bool>)
    ensures r.trace == tr + [Query(STATUS_QUERY)]
    ensures r.status.Done? <==> Info(env, |tr|).Done?
    ensures r.status.Done? ==> (r.status.value <==> Info(env, |tr|).value != "")
    ensures !r.status.Done? ==> r.status.reason == Info(env, |tr|).reason
  {
    var out := OutputGitCommand(env, tr, STATUS_QUERY);
    match out.status
    case Done(text) => Run(out.trace, Done(text != ""))
    case Halted(h) => Run(out.trace, Halted(h))
  }

  /** Stage everything, then commit it with `message`. */
  function AddAndCommit(env: Env, tr: seq<Action>, message: string): Run<()> {
    var add := SpawnGitCommand(env, tr, ADD_ARGS);
    if !add.status.Done? then add
    else SpawnGitCommand(env, add.trace, CommitArgs(message))
  }

  /** What the three configuration queries returned. */
  datatype Identity = Identity(branch: string, remote: string, email: string)

  /** `current_branch`, then `remote` of that branch, then `user_email`. An
      empty answer is kept as it is, not treated as an error. */
  function ReadIdentity(env: Env): Run<Identity> {
    var branch := OutputGitCommand(env, [], BRANCH_QUERY);
    if !branch.status.Done? then Run(branch.trace, Halted(branch.status.reason))
    else
      var remote := OutputGitCommand(env, branch.trace, RemoteQuery(branch.status.value));
      if !remote.status.Done? then Run(remote.trace, Halted(remote.status.reason))
      else
        var email := OutputGitCommand(env, remote.trace, EMAIL_QUERY);
        if !email.status.Done? then Run(email.trace, Halted(email.status.reason))
        else Run(email.trace, Done(Identity(branch.status.value, remote.status.value, email.status.value)))
  }

  /** After the status query: add and commit if `dirty`, then push. */
  function CommitAndPush(env: Env, tr: seq<Action>, dirty: bool, name: string, remote: string, message: string): Run<()> {
    var saved := if dirty then AddAndCommit(env, tr, message) else Run(tr, Done(()));
    if !saved.status.Done? then saved
    else SpawnGitCommand(env, saved.trace, PushArgs(name, remote))
  }

  /** Check out the new branch, look for uncommitted changes, then commit and push. */
  function SaveChanges(env: Env, tr: seq<Action>, name: string, remote: string, message: string): Run<()> {
    var checkout := SpawnGitCommand(env, tr, CheckoutArgs(name));
    if !checkout.status.Done? then checkout
    else
      var changes := AnyUncommittedChanges(env, checkout.trace);
      if !changes.status.Done? then Run(changes.trace, Halted(changes.status.reason))
      else CommitAndPush(env, changes.trace, changes.status.value, name, remote, message)
  }

  /** `earthquake_procedure`: the whole run, from an empty trace. */
  function EarthquakeProcedure(env: Env, config: Config.Config): Run<()> {
    var id := ReadIdentity(env);
    if !id.status.Done? then Run(id.trace, Halted(id.status.reason))
    else
      match env.clock
      case BeforeEpoch => Run(id.trace, Halted(Err(ClockError)))
      case Since(t) =>
        var name := BranchName(id.status.value.branch, id.status.value.email, t);
        SaveChanges(env, id.trace, name, id.status.value.remote, config.commitMessage)
  }
}

=== FILE: earthquake_properties.dfy ===
/**
 What the earthquake procedure guarantees, for every scripted environment:
 where a run stops, the lock discipline before each mutating command, the
 order of the git commands on success, the conditional add and commit, the
 shared branch name, and that neither empty configuration values nor git's
 exit status change the course of a run.
 */
module EarthquakeProperties {

  import opened Git
  import opened Earthquake
  import Config

  // ---------------------------------------------------------------------------
  // The steps of a run compose

  lemma ChangesSteps(env: Env, tr: seq<Action>)
    ensures Steps(env, tr, AnyUncommittedChanges(env, tr))
  {
    OutputSteps(env, tr, STATUS_QUERY);
    StepsRetype(env, tr, OutputGitCommand(env, tr, STATUS_QUERY), AnyUncommittedChanges(env, tr));
  }

  lemma AddAndCommitSteps(env: Env, tr: seq<Action>, message: string)
    ensures Steps(env, tr, AddAndCommit(env, tr, message))
  {
    var add := SpawnGitCommand(env, tr, ADD_ARGS);
    SpawnSteps(env, tr, ADD_ARGS);
    if add.status.Done? {
      SpawnSteps(env, add.trace, CommitArgs(message));
      StepsThen(env, tr, add, SpawnGitCommand(env, add.trace, CommitArgs(message)));
    }
  }

  lemma AddAndCommitGuarded(env: Env, tr: seq<Action>, message: string)
    ensures var r := AddAndCommit(env, tr, message);
      && ProbeResolved(r.trace)
      && (r.status.Done? ==> OutsideLockCheck(r.trace))
      && (Guarded(env, tr) && OutsideLockCheck(tr) ==> Guarded(env, r.trace))
  {
    var add := SpawnGitCommand(env, tr, ADD_ARGS);
    SpawnGuarded(env, tr, ADD_ARGS);
    if add.status.Done? {
      SpawnGuarded(env, add.trace, CommitArgs(message));
    }
  }

  lemma AddAndCommitCommands(env: Env, tr: seq<Action>, message: string)
    ensures var r := AddAndCommit(env, tr, message);
      r.status.Done? ==> Commands(r.trace) == Commands(tr) + [Spawn(ADD_ARGS), Spawn(CommitArgs(message))]
  {
    var add := SpawnGitCommand(env, tr, ADD_ARGS);
    SpawnCommands(env, tr, ADD_ARGS);
    if add.status.Done? {
      SpawnCommands(env, add.trace, CommitArgs(message));
    }
  }

  lemma IdentitySteps(env: Env)
    ensures Steps(env, [], ReadIdentity(env))
    ensures ReadIdentity(env).status.Done? ==> |ReadIdentity(env).trace| == 3
  {
    assert Settled(env, []);
    var branch := OutputGitCommand(env, [], BRANCH_QUERY);
    OutputSteps(env, [], BRANCH_QUERY);
    if !branch.status.Done? {
      StepsRetype<string, ()>(env, [], branch, Run(branch.trace, Halted(branch.status.reason)));
    } else {
      var remote := OutputGitCommand(env, branch.trace, RemoteQuery(branch.status.value));
      OutputSteps(env, branch.trace, RemoteQuery(branch.status.value));
      StepsThen(env, [], branch, remote);
      if !remote.status.Done? {
        StepsRetype<string, ()>(env, [], remote, Run(remote.trace, Halted(remote.status.reason)));
      } else {
        var email := OutputGitCommand(env, remote.trace, EMAIL_QUERY);
        OutputSteps(env, remote.trace, EMAIL_QUERY);
        StepsThen(env, [], remote, email);
        StepsRetype(env, [], email, ReadIdentity(env));
      }
    }
  }

  lemma IdentityGuarded(env: Env)
    ensures var t := ReadIdentity(env).trace;
      |t| > 0 && Guarded(env, t) && OutsideLockCheck(t)
  {
    var branch := OutputGitCommand(env, [], BRANCH_QUERY);
    assert Guarded(env, []);
    OutputGuarded(env, [], BRANCH_QUERY);
    if branch.status.Done? {
      var remote := OutputGitCommand(env, branch.trace, RemoteQuery(branch.status.value));
      assert RemoteQuery(branch.status.value)[0] != REV_PARSE[0];
      OutputGuarded(env, branch.trace, RemoteQuery(branch.status.value));
      if remote.status.Done? {
        OutputGuarded(env, remote.trace, EMAIL_QUERY);
      }
    }
  }

  /** The identity queries are the first actions of every run, one after the
      other, and the run's first three positions when they all succeed. */
  lemma IdentityTrace(env: Env)
    ensures var r := ReadIdentity(env);
      && Guarded(env, r.trace)
      && ProbeResolved(r.trace)
      && 0 < |r.trace| <= 3
      && Commands(r.trace) == r.trace
      && r.trace[0] == Query(BRANCH_QUERY)
      && (r.status.Done? ==>
            && Info(env, 0) == Done(r.status.value.branch)
            && Info(env, 1) == Done(r.status.value.remote)
            && Info(env, 2) == Done(r.status.value.email)
            && r.trace == [Query(BRANCH_QUERY), Query(RemoteQuery(r.status.value.branch)), Query(EMAIL_QUERY)])
  {
    IdentityGuarded(env);
    IdentityQueries(env);
  }

  /** The actions of the identity step are its queries, in order. */
  lemma IdentityQueries(env: Env)
    ensures var r := ReadIdentity(env);
      && 0 < |r.trace| <= 3
      && Commands(r.trace) == r.trace
      && r.trace[0] == Query(BRANCH_QUERY)
      && (r.status.Done? ==>
            && Info(env, 0) == Done(r.status.value.branch)
            && Info(env, 1) == Done(r.status.value.remote)
            && Info(env, 2) == Done(r.status.value.email)
            && r.trace == [Query(BRANCH_QUERY), Query(RemoteQuery(r.status.value.branch)), Query(EMAIL_QUERY)])
  {
    IdentityActions(env);
    IdentityAnswers(env);
  }

  /** IdentityQueries, the trace half. */
  lemma IdentityActions(env: Env)
    ensures var r := ReadIdentity(env);
      && 0 < |r.trace| <= 3
      && Commands(r.trace) == r.trace
      && r.trace[0] == Query(BRANCH_QUERY)
      && (r.status.Done? ==>
            r.trace == [Query(BRANCH_QUERY), Query(RemoteQuery(r.status.value.branch)), Query(EMAIL_QUERY)])
  {
    var branch := OutputGitCommand(env, [], BRANCH_QUERY);
    QueryStep(env, [], BRANCH_QUERY);
    if branch.status.Done? {
      var b := branch.status.value;
      var remote := OutputGitCommand(env, branch.trace, RemoteQuery(b));
      assert RemoteQuery(b) != REV_PARSE by {
        assert RemoteQuery(b)[0] != REV_PARSE[0];
      }
      QueryStep(env, branch.trace, RemoteQuery(b));
      if remote.status.Done? {
        QueryStep(env, remote.trace, EMAIL_QUERY);
      }
    }
    if ReadIdentity(env).status.Done? {
      IdentityAnswers(env);
      IdentityAllRead(env);
    }
  }

  /** IdentityQueries, the answers half: a successful identity step holds what
      the three queries read. */
  lemma IdentityAnswers(env: Env)
    ensures var r := ReadIdentity(env);
      r.status.Done? ==>
        && Info(env, 0) == Done(r.status.value.branch)
        && Info(env, 1) == Done(r.status.value.remote)
        && Info(env, 2) == Done(r.status.value.email)
  {
    var branch := OutputGitCommand(env, [], BRANCH_QUERY);
    assert |branch.trace| == 1 && branch.status == Info(env, 0);
    if branch.status.Done? {
      var remote := OutputGitCommand(env, branch.trace, RemoteQuery(branch.status.value));
      assert |remote.trace| == 2 && remote.status == Info(env, 1);
    }
  }

  /** When all three queries read their output, the identity step is those
      three queries and what they read. */
  lemma IdentityAllRead(env: Env)
    requires Info(env, 0).Done? && Info(env, 1).Done? && Info(env, 2).Done?
    ensures var b := Info(env, 0).value;
      ReadIdentity(env) == Run([Query(BRANCH_QUERY), Query(RemoteQuery(b)), Query(EMAIL_QUERY)],
                               Done(Identity(b, Info(env, 1).value, Info(env, 2).value)))
  {
    var b := Info(env, 0).value;
    var branch := OutputGitCommand(env, [], BRANCH_QUERY);
    assert branch == Run([Query(BRANCH_QUERY)], Info(env, 0));
    var remote := OutputGitCommand(env, branch.trace, RemoteQuery(b));
    assert remote == Run([Query(BRANCH_QUERY), Query(RemoteQuery(b))], Info(env, 1));
    var email := OutputGitCommand(env, remote.trace, EMAIL_QUERY);
    assert email == Run([Query(BRANCH_QUERY), Query(RemoteQuery(b)), Query(EMAIL_QUERY)], Info(env, 2));
  }

  /** One identity query appended to a trace of git commands: the trace stays
      all commands, and the query reads the reply at its own position. */
  lemma QueryStep(env: Env, tr: seq<Action>, args: seq<string>)
    requires Commands(tr) == tr && args != REV_PARSE
    ensures var o := OutputGitCommand(env, tr, args);
      o.trace == tr + [Query(args)] && Commands(o.trace) == o.trace && o.status == Info(env, |tr|)
  {
    OutputCommands(env, tr, args);
  }

  lemma CommitAndPushSteps(env: Env, tr: seq<Action>, dirty: bool, name: string, remote: string, message: string)
    ensures Steps(env, tr, CommitAndPush(env, tr, dirty, name, remote, message))
  {
    var saved := if dirty then AddAndCommit(env, tr, message) else Run(tr, Done(()));
    if dirty {
      AddAndCommitSteps(env, tr, message);
    }
    if saved.status.Done? {
      SpawnSteps(env, saved.trace, PushArgs(name, remote));
      StepsThen(env, tr, saved, SpawnGitCommand(env, saved.trace, PushArgs(name, remote)));
    }
  }

  lemma CommitAndPushGuarded(env: Env, tr: seq<Action>, dirty: bool, name: string, remote: string, message: string)
    requires OutsideLockCheck(tr)
    ensures var t := CommitAndPush(env, tr, dirty, name, remote, message).trace;
      && ProbeResolved(t)
      && (Guarded(env, tr) ==> Guarded(env, t))
  {
    var saved := if dirty then AddAndCommit(env, tr, message) else Run(tr, Done(()));
    if dirty {
      AddAndCommitGuarded(env, tr, message);
    }
    if saved.status.Done? {
      SpawnGuarded(env, saved.trace, PushArgs(name, remote));
    }
  }

  lemma CommitAndPushCommands(env: Env, tr: seq<Action>, dirty: bool, name: string, remote: string, message: string)
    ensures var r := CommitAndPush(env, tr, dirty, name, remote, message);
      r.status.Done? ==>
        Commands(r.trace) == Commands(tr)
          + (if dirty then [Spawn(ADD_ARGS), Spawn(CommitArgs(message))] else [])
          + [Spawn(PushArgs(name, remote))]
  {
    var saved := if dirty then AddAndCommit(env, tr, message) else Run(tr, Done(()));
    if dirty {
      AddAndCommitCommands(env, tr, message);
    }
    if saved.status.Done? {
      SpawnCommands(env, saved.trace, PushArgs(name, remote));
    }
  }

  lemma SaveChangesSteps(env: Env, tr: seq<Action>, name: string, remote: string, message: string)
    ensures Steps(env, tr, SaveChanges(env, tr, name, remote, message))
  {
    var checkout := SpawnGitCommand(env, tr, CheckoutArgs(name));
    SpawnSteps(env, tr, CheckoutArgs(name));
    if checkout.status.Done? {
      var changes := AnyUncommittedChanges(env, checkout.trace);
      ChangesSteps(env, checkout.trace);
      StepsThen(env, tr, checkout, changes);
      if !changes.status.Done? {
        StepsRetype<bool, ()>(env, tr, changes, Run(changes.trace, Halted(changes.status.reason)));
      } else {
        var r := CommitAndPush(env, changes.trace, changes.status.value, name, remote, message);
        CommitAndPushSteps(env, changes.trace, changes.status.value, name, remote, message);
        StepsThen(env, tr, changes, r);
      }
    }
  }

  lemma SaveChangesGuarded(env: Env, tr: seq<Action>, name: string, remote: string, message: string)
    requires OutsideLockCheck(tr)
    ensures var t := SaveChanges(env, tr, name, remote, message).trace;
      && ProbeResolved(t)
      && (Guarded(env, tr) ==> Guarded(env, t))
  {
    var checkout := SpawnGitCommand(env, tr, CheckoutArgs(name));
    SpawnGuarded(env, tr, CheckoutArgs(name));
    if checkout.status.Done? {
      var changes := AnyUncommittedChanges(env, checkout.trace);
      OutputGuarded(env, checkout.trace, STATUS_QUERY);
      if changes.status.Done? {
        CommitAndPushGuarded(env, changes.trace, changes.status.value, name, remote, message);
      }
    }
  }

  lemma CommitAndPushExtends(env: Env, tr: seq<Action>, dirty: bool, name: string, remote: string, message: string)
    ensures tr <= CommitAndPush(env, tr, dirty, name, remote, message).trace
  {
    CommitAndPushSteps(env, tr, dirty, name, remote, message);
  }

  lemma SaveChangesUnfold(env: Env, tr: seq<Action>, name: string, remote: string, message: string)
    ensures var r := SaveChanges(env, tr, name, remote, message);
      var checkout := SpawnGitCommand(env, tr, CheckoutArgs(name));
      var changes := AnyUncommittedChanges(env, checkout.trace);
      r.status.Done? ==>
        && checkout.status.Done?
        && changes.status.Done?
        && r == CommitAndPush(env, changes.trace, changes.status.value, name, remote, message)
  {
  }

  lemma SaveChangesCommands(env: Env, tr: seq<Action>, name: string, remote: string, message: string)
    ensures var r := SaveChanges(env, tr, name, remote, message);
      r.status.Done? ==>
        exists k :: |tr| < k < |r.trace| && r.trace[k] == Query(STATUS_QUERY) && Info(env, k).Done? &&
          Commands(r.trace) == Commands(tr) + SavePlan(name, remote, message, Info(env, k).value != "")
  {
    var r := SaveChanges(env, tr, name, remote, message);
    if r.status.Done? {
      var checkout := SpawnGitCommand(env, tr, CheckoutArgs(name));
      var changes := AnyUncommittedChanges(env, checkout.trace);
      assert checkout.status.Done? && changes.status.Done? by {
        SaveChangesUnfold(env, tr, name, remote, message);
      }
      var dirty := changes.status.value;
      var k := |checkout.trace|;
      var a := Commands(tr);
      var ca := a + [Spawn(CheckoutArgs(name)), Query(STATUS_QUERY)];
      assert Commands(changes.trace) == ca by {
        CheckoutPrefix(env, tr, name, remote, message);
        OutputCommands(env, checkout.trace, STATUS_QUERY);
      }
      assert |tr| < k && changes.trace[k] == Query(STATUS_QUERY) by {
        CheckoutPrefix(env, tr, name, remote, message);
      }
      assert dirty <==> Info(env, k).value != "";
      var rest := CommitAndPush(env, changes.trace, dirty, name, remote, message);
      assert changes.trace <= rest.trace && (rest.status.Done? ==> Commands(rest.trace) == a + SavePlan(name, remote, message, dirty)) by {
        SaveChangesDone(env, changes.trace, dirty, name, remote, message, a, ca);
      }
      assert r == rest by {
        SaveChangesUnfold(env, tr, name, remote, message);
      }
      assert r.trace[k] == Query(STATUS_QUERY);
    }
  }

  /** The part of SaveChangesCommands after a successful status query at the
      last position of `tr`. */
  lemma SaveChangesDone(env: Env, tr: seq<Action>, dirty: bool, name: string, remote: string, message: string,
                        a: seq<Action>, ca: seq<Action>)
    requires ca == a + [Spawn(CheckoutArgs(name)), Query(STATUS_QUERY)] && Commands(tr) == ca
    ensures var r := CommitAndPush(env, tr, dirty, name, remote, message);
      && tr <= r.trace
      && (r.status.Done? ==> Commands(r.trace) == a + SavePlan(name, remote, message, dirty))
  {
    CommitAndPushCommands(env, tr, dirty, name, remote, message);
    CommitAndPushExtends(env, tr, dirty, name, remote, message);
    SavePlanJoin(a, name, remote, message, dirty);
  }

  /** The plan after the status query, appended to the checkout and that query. */
  lemma SavePlanJoin(a: seq<Action>, name: string, remote: string, message: string, dirty: bool)
    ensures var ac: seq<Action> := if dirty then [Spawn(ADD_ARGS), Spawn(CommitArgs(message))] else [];
      a + [Spawn(CheckoutArgs(name)), Query(STATUS_QUERY)] + ac + [Spawn(PushArgs(name, remote))]
        == a + SavePlan(name, remote, message, dirty)
  {
  }

  /** The run as the identity queries followed by the rest of the procedure. */
  lemma ProcedureUnfold(env: Env, config: Config.Config)
    ensures var r := EarthquakeProcedure(env, config);
      var id := ReadIdentity(env);
      && (!id.status.Done? ==> r == Run(id.trace, Halted(id.status.reason)))
      && (id.status.Done? && env.clock.BeforeEpoch? ==> r == Run(id.trace, Halted(Err(ClockError))))
      && (id.status.Done? && env.clock.Since? ==>
            r == SaveChanges(env, id.trace,
                   BranchName(id.status.value.branch, id.status.value.email, env.clock.seconds),
                   id.status.value.remote, config.commitMessage))
  {
  }

  /** The whole run is one step from the empty trace, except that a clock
      error stops it after the three settled identity queries. */
  lemma ProcedureSteps(env: Env, config: Config.Config)
    ensures var r := EarthquakeProcedure(env, config);
      && (r.status != Halted(Err(ClockError)) ==> Steps(env, [], r))
      && (r.status == Halted(Err(ClockError)) ==>
            env.clock.BeforeEpoch? && |r.trace| == 3 && Settled(env, r.trace))
  {
    var r := EarthquakeProcedure(env, config);
    var id := ReadIdentity(env);
    IdentitySteps(env);
    ProcedureUnfold(env, config);
    if !id.status.Done? {
      StepsRetype<Identity, ()>(env, [], id, r);
    } else if env.clock.Since? {
      var name := BranchName(id.status.value.branch, id.status.value.email, env.clock.seconds);
      SaveChangesSteps(env, id.trace, name, id.status.value.remote, config.commitMessage);
      StepsThen(env, [], id, r);
      SaveChangesNeverClockError(env, id.trace, name, id.status.value.remote, config.commitMessage);
    }
  }

  /** Only the clock produces the clock error. */
  lemma SaveChangesNeverClockError(env: Env, tr: seq<Action>, name: string, remote: string, message: string)
    ensures SaveChanges(env, tr, name, remote, message).status != Halted(Err(ClockError))
  {
    var checkout := SpawnGitCommand(env, tr, CheckoutArgs(name));
    SpawnNeverClockError(env, tr, CheckoutArgs(name));
    if checkout.status.Done? {
      var changes := AnyUncommittedChanges(env, checkout.trace);
      if changes.status.Done? {
        var dirty := changes.status.value;
        var saved := if dirty then AddAndCommit(env, changes.trace, message) else Run(changes.trace, Done(()));
        if dirty {
          SpawnNeverClockError(env, changes.trace, ADD_ARGS);
          var add := SpawnGitCommand(env, changes.trace, ADD_ARGS);
          if add.status.Done? {
            SpawnNeverClockError(env, add.trace, CommitArgs(message));
          }
        }
        if saved.status.Done? {
          SpawnNeverClockError(env, saved.trace, PushArgs(name, remote));
        }
      }
    }
  }

  lemma SpawnNeverClockError(env: Env, tr: seq<Action>, args: seq<string>)
    ensures SpawnGitCommand(env, tr, args).status != Halted(Err(ClockError))
  {
  }

  lemma ProcedureGuarded(env: Env, config: Config.Config)
    ensures var t := EarthquakeProcedure(env, config).trace;
      |t| > 0 && Guarded(env, t) && ProbeResolved(t)
  {
    var id := ReadIdentity(env);
    IdentityGuarded(env);
    ProcedureUnfold(env, config);
    if id.status.Done? && env.clock.Since? {
      var name := BranchName(id.status.value.branch, id.status.value.email, env.clock.seconds);
      SaveChangesGuarded(env, id.trace, name, id.status.value.remote, config.commitMessage);
      SaveChangesSteps(env, id.trace, name, id.status.value.remote, config.commitMessage);
    }
  }

  // ---------------------------------------------------------------------------
  // Every run, successful or not, issues a prefix of the planned commands

  /** The commands after the identity queries: checkout of the new branch, the
      status query, add and commit when the work tree is dirty, then push. */
  function SavePlan(name: string, remote: string, message: string, dirty: bool): seq<Action> {
    [Spawn(CheckoutArgs(name)), Query(STATUS_QUERY)]
      + (if dirty then [Spawn(ADD_ARGS), Spawn(CommitArgs(message))] else [])
      + [Spawn(PushArgs(name, remote))]
  }

  /** All the git commands of a run, top-level queries of the lock checks left out. */
  function Plan(branch: string, remote: string, email: string, epoch: nat, dirty: bool, message: string): seq<Action> {
    [Query(BRANCH_QUERY), Query(RemoteQuery(branch)), Query(EMAIL_QUERY)]
      + SavePlan(BranchName(branch, email, epoch), remote, message, dirty)
  }

  lemma PrefixOf(a: seq<Action>, p: seq<Action>, l: seq<Action>)
    requires p <= l
    ensures a <= a + p && a + p <= a + l
  {
    assert (a + l)[..|a| + |p|] == a + p;
  }

  lemma PrefixExtend(a: seq<Action>, c: seq<Action>, l: seq<Action>, m: seq<Action>)
    requires a <= c && c <= a + l && l <= m
    ensures c <= a + m
  {
    var p := c[|a|..];
    assert c == a + p;
    assert p <= l by {
      assert (a + l)[..|c|] == c;
      assert l[..|p|] == (a + l)[|a|..|c|];
    }
    PrefixOf(a, p, m);
  }

  lemma AddAndCommitPrefix(env: Env, tr: seq<Action>, message: string)
    ensures var c := Commands(AddAndCommit(env, tr, message).trace);
      Commands(tr) <= c && c <= Commands(tr) + [Spawn(ADD_ARGS), Spawn(CommitArgs(message))]
  {
    var a := Commands(tr);
    var l := [Spawn(ADD_ARGS), Spawn(CommitArgs(message))];
    var add := SpawnGitCommand(env, tr, ADD_ARGS);
    var ca := Commands(add.trace);
    var c := Commands(AddAndCommit(env, tr, message).trace);
    if !add.status.Done? {
      assert c == ca;
      assert a <= ca && ca <= a + [Spawn(ADD_ARGS)] by {
        assert a == a + [];
        SpawnPrefix(env, tr, ADD_ARGS, a, []);
      }
      PrefixExtend(a, ca, [Spawn(ADD_ARGS)], l);
    } else {
      var cc := Commands(SpawnGitCommand(env, add.trace, CommitArgs(message)).trace);
      assert c == cc;
      assert ca == a + [Spawn(ADD_ARGS)] by {
        SpawnCommands(env, tr, ADD_ARGS);
      }
      assert a <= cc && cc <= a + l by {
        SpawnPrefix(env, add.trace, CommitArgs(message), a, [Spawn(ADD_ARGS)]);
      }
    }
  }

  lemma CommitAndPushPrefix(env: Env, tr: seq<Action>, dirty: bool, name: string, remote: string, message: string)
    ensures var c := Commands(CommitAndPush(env, tr, dirty, name, remote, message).trace);
      var l := (if dirty then [Spawn(ADD_ARGS), Spawn(CommitArgs(message))] else []) + [Spawn(PushArgs(name, remote))];
      Commands(tr) <= c && c <= Commands(tr) + l
  {
    var a := Commands(tr);
    var ac: seq<Action> := if dirty then [Spawn(ADD_ARGS), Spawn(CommitArgs(message))] else [];
    var l := ac + [Spawn(PushArgs(name, remote))];
    assert ac <= l;
    if dirty {
      var saved := AddAndCommit(env, tr, message);
      if !saved.status.Done? {
        assert a <= Commands(saved.trace) && Commands(saved.trace) <= a + ac by {
          AddAndCommitPrefix(env, tr, message);
        }
        PrefixExtend(a, Commands(saved.trace), ac, l);
      } else {
        assert Commands(saved.trace) == a + ac by {
          AddAndCommitCommands(env, tr, message);
        }
        SpawnPrefix(env, saved.trace, PushArgs(name, remote), a, ac);
      }
    } else {
      assert a == a + ac;
      SpawnPrefix(env, tr, PushArgs(name, remote), a, ac);
    }
  }

  /** A mutating command issued after the commands `a + p` adds at most itself. */
  lemma SpawnPrefix(env: Env, tr: seq<Action>, args: seq<string>, a: seq<Action>, p: seq<Action>)
    requires Commands(tr) == a + p
    ensures var c := Commands(SpawnGitCommand(env, tr, args).trace);
      a <= c && c <= a + (p + [Spawn(args)])
  {
    var l := p + [Spawn(args)];
    SpawnCommands(env, tr, args);
    assert a + p + [Spawn(args)] == a + l;
    PrefixOf(a, p, l);
    PrefixOf(a, l, l);
  }

  /** Up to the status query the commands follow the common beginning of both
      plans; past it, the plan the status reply selects. */
  lemma SaveChangesPrefix(env: Env, tr: seq<Action>, name: string, remote: string, message: string)
    ensures var r := SaveChanges(env, tr, name, remote, message);
      var a := Commands(tr);
      var c := Commands(r.trace);
      && a <= c
      && (|c| <= |a| + 2 ==> c <= a + SavePlan(name, remote, message, false))
      && (|c| > |a| + 2 ==>
            exists k :: |tr| < k < |r.trace| && r.trace[k] == Query(STATUS_QUERY) && Info(env, k).Done? &&
              c <= a + SavePlan(name, remote, message, Info(env, k).value != ""))
  {
    var r := SaveChanges(env, tr, name, remote, message);
    var a := Commands(tr);
    var checkout := SpawnGitCommand(env, tr, CheckoutArgs(name));
    CheckoutPrefix(env, tr, name, remote, message);
    if checkout.status.Done? {
      var k := |checkout.trace|;
      var changes := AnyUncommittedChanges(env, checkout.trace);
      var ca := a + [Spawn(CheckoutArgs(name)), Query(STATUS_QUERY)];
      assert Commands(changes.trace) == ca by {
        OutputCommands(env, checkout.trace, STATUS_QUERY);
      }
      if changes.status.Done? {
        var dirty := changes.status.value;
        SaveChangesTail(env, changes.trace, dirty, name, remote, message, a, ca);
        assert r == CommitAndPush(env, changes.trace, dirty, name, remote, message);
        assert dirty <==> Info(env, k).value != "";
        assert k < |changes.trace| && changes.trace[k] == Query(STATUS_QUERY) && Info(env, k).Done?;
      } else {
        PrefixOf(a, [Spawn(CheckoutArgs(name)), Query(STATUS_QUERY)], SavePlan(name, remote, message, false));
      }
    }
  }

  /** The checkout issues itself at most once, after the commands so far. */
  lemma CheckoutPrefix(env: Env, tr: seq<Action>, name: string, remote: string, message: string)
    ensures var checkout := SpawnGitCommand(env, tr, CheckoutArgs(name));
      var a := Commands(tr);
      var c := Commands(checkout.trace);
      && |tr| < |checkout.trace|
      && a <= c && |c| <= |a| + 1 && c <= a + SavePlan(name, remote, message, false)
      && (checkout.status.Done? ==> c == a + [Spawn(CheckoutArgs(name))])
  {
    var a := Commands(tr);
    var co := Spawn(CheckoutArgs(name));
    var clean := SavePlan(name, remote, message, false);
    SpawnCommands(env, tr, CheckoutArgs(name));
    SpawnSteps(env, tr, CheckoutArgs(name));
    assert a + [] == a;
    PrefixOf(a, [], clean);
    PrefixOf(a, [co], clean);
  }

  /** The part of SaveChangesPrefix after a successful status query at the
      last position of `tr`. */
  lemma SaveChangesTail(env: Env, tr: seq<Action>, dirty: bool, name: string, remote: string, message: string,
                        a: seq<Action>, ca: seq<Action>)
    requires ca == a + [Spawn(CheckoutArgs(name)), Query(STATUS_QUERY)] && Commands(tr) == ca
    ensures var r := CommitAndPush(env, tr, dirty, name, remote, message);
      var c := Commands(r.trace);
      && tr <= r.trace
      && a <= c
      && (|c| <= |a| + 2 ==> c == ca && ca <= a + SavePlan(name, remote, message, false))
      && c <= a + SavePlan(name, remote, message, dirty)
  {
    var r := CommitAndPush(env, tr, dirty, name, remote, message);
    var ac: seq<Action> := if dirty then [Spawn(ADD_ARGS), Spawn(CommitArgs(message))] else [];
    var l := ac + [Spawn(PushArgs(name, remote))];
    assert tr <= r.trace && ca <= Commands(r.trace) && Commands(r.trace) <= ca + l by {
      CommitAndPushPrefix(env, tr, dirty, name, remote, message);
      CommitAndPushExtends(env, tr, dirty, name, remote, message);
    }
    SavePlanTail(a, Commands(r.trace), name, remote, message, dirty);
  }

  /** Commands that extend the checkout and the status query by a prefix of
      the rest of the plan follow the plan. */
  lemma SavePlanTail(a: seq<Action>, c: seq<Action>, name: string, remote: string, message: string, dirty: bool)
    requires var ca := a + [Spawn(CheckoutArgs(name)), Query(STATUS_QUERY)];
      var ac: seq<Action> := if dirty then [Spawn(ADD_ARGS), Spawn(CommitArgs(message))] else [];
      ca <= c && c <= ca + (ac + [Spawn(PushArgs(name, remote))])
    ensures var ca := a + [Spawn(CheckoutArgs(name)), Query(STATUS_QUERY)];
      && a <= c
      && (|c| <= |a| + 2 ==> c == ca && ca <= a + SavePlan(name, remote, message, false))
      && c <= a + SavePlan(name, remote, message, dirty)
  {
    var p := [Spawn(CheckoutArgs(name)), Query(STATUS_QUERY)];
    var ca := a + p;
    var ac: seq<Action> := if dirty then [Spawn(ADD_ARGS), Spawn(CommitArgs(message))] else [];
    var l := ac + [Spawn(PushArgs(name, remote))];
    assert ca + l == a + SavePlan(name, remote, message, dirty);
    PrefixOf(a, p, SavePlan(name, remote, message, false));
    assert a <= ca;
    if |c| <= |a| + 2 {
      assert c == ca;
    }
  }

  // ---------------------------------------------------------------------------
  // A run that ends inside a lock check stopped there, before a planned spawn

  /** Add and commit, ended inside a lock check, stopped before the commit was
      issued. */
  lemma AddAndCommitPending(env: Env, tr: seq<Action>, message: string)
    ensures var r := AddAndCommit(env, tr, message);
      !OutsideLockCheck(r.trace) ==> !r.status.Done? && |Commands(r.trace)| < |Commands(tr)| + 2
  {
    var add := SpawnGitCommand(env, tr, ADD_ARGS);
    SpawnPending(env, tr, ADD_ARGS);
    if add.status.Done? {
      assert Commands(add.trace) == Commands(tr) + [Spawn(ADD_ARGS)] by {
        SpawnCommands(env, tr, ADD_ARGS);
      }
      SpawnPending(env, add.trace, CommitArgs(message));
    }
  }

  /** Commit and push, ended inside a lock check, stopped before the push was
      issued. */
  lemma CommitAndPushPending(env: Env, tr: seq<Action>, dirty: bool, name: string, remote: string, message: string)
    ensures var r := CommitAndPush(env, tr, dirty, name, remote, message);
      var n := if dirty then 3 else 1;
      && (r.status.Done? ==> |r.trace| > 0 && r.trace[|r.trace| - 1].Spawn?)
      && (!OutsideLockCheck(r.trace) ==> !r.status.Done? && |Commands(r.trace)| < |Commands(tr)| + n)
  {
    var saved := if dirty then AddAndCommit(env, tr, message) else Run(tr, Done(()));
    if dirty {
      AddAndCommitPending(env, tr, message);
    }
    if saved.status.Done? {
      assert |Commands(saved.trace)| == |Commands(tr)| + (if dirty then 2 else 0) by {
        if dirty {
          AddAndCommitCommands(env, tr, message);
        }
      }
      SpawnPending(env, saved.trace, PushArgs(name, remote));
    }
  }

  /** Saving changes, ended inside a lock check, stopped before the checkout
      or, once the status was read, before a later spawn of the plan that
      status selects. A successful save ends with the push. */
  lemma SaveChangesPending(env: Env, tr: seq<Action>, name: string, remote: string, message: string)
    ensures var r := SaveChanges(env, tr, name, remote, message);
      var a := Commands(tr);
      var c := Commands(r.trace);
      && (r.status.Done? ==> |r.trace| > 0 && r.trace[|r.trace| - 1].Spawn?)
      && (!OutsideLockCheck(r.trace) ==>
            && !r.status.Done?
            && (|| c == a
                || exists k :: |tr| < k < |r.trace| && r.trace[k] == Query(STATUS_QUERY) && Info(env, k).Done? &&
                     |a| + 2 <= |c| < |a| + |SavePlan(name, remote, message, Info(env, k).value != "")|))
  {
    var checkout := SpawnGitCommand(env, tr, CheckoutArgs(name));
    SpawnPending(env, tr, CheckoutArgs(name));
    if checkout.status.Done? {
      assert Commands(checkout.trace) == Commands(tr) + [Spawn(CheckoutArgs(name))] && |tr| < |checkout.trace| by {
        CheckoutPrefix(env, tr, name, remote, message);
      }
      AfterCheckoutPending(env, checkout.trace, name, remote, message, Commands(tr));
    }
  }

  /** SaveChangesPending once the checkout has succeeded: the status query
      comes next, at index `|tr|`. */
  lemma AfterCheckoutPending(env: Env, tr: seq<Action>, name: string, remote: string, message: string,
                             a: seq<Action>)
    requires Commands(tr) == a + [Spawn(CheckoutArgs(name))]
    ensures var changes := AnyUncommittedChanges(env, tr);
      var r := if !changes.status.Done? then Run(changes.trace, Halted(changes.status.reason))
               else CommitAndPush(env, changes.trace, changes.status.value, name, remote, message);
      var c := Commands(r.trace);
      && (r.status.Done? ==> |r.trace| > 0 && r.trace[|r.trace| - 1].Spawn?)
      && (!OutsideLockCheck(r.trace) ==>
            && !r.status.Done?
            && |tr| < |r.trace| && r.trace[|tr|] == Query(STATUS_QUERY) && Info(env, |tr|).Done?
            && |a| + 2 <= |c| < |a| + |SavePlan(name, remote, message, Info(env, |tr|).value != "")|)
  {
    var changes := AnyUncommittedChanges(env, tr);
    if changes.status.Done? {
      assert Commands(changes.trace) == a + [Spawn(CheckoutArgs(name)), Query(STATUS_QUERY)] by {
        OutputCommands(env, tr, STATUS_QUERY);
      }
      PendingTail(env, changes.trace, changes.status.value, name, remote, message, a);
    }
  }

  /** SaveChangesPending once the status has been read. */
  lemma PendingTail(env: Env, tr: seq<Action>, dirty: bool, name: string, remote: string, message: string,
                    a: seq<Action>)
    requires Commands(tr) == a + [Spawn(CheckoutArgs(name)), Query(STATUS_QUERY)]
    ensures var r := CommitAndPush(env, tr, dirty, name, remote, message);
      var c := Commands(r.trace);
      && tr <= r.trace
      && (r.status.Done? ==> |r.trace| > 0 && r.trace[|r.trace| - 1].Spawn?)
      && (!OutsideLockCheck(r.trace) ==>
            !r.status.Done? && |a| + 2 <= |c| < |a| + |SavePlan(name, remote, message, dirty)|)
  {
    CommitAndPushPrefix(env, tr, dirty, name, remote, message);
    CommitAndPushExtends(env, tr, dirty, name, remote, message);
    CommitAndPushPending(env, tr, dirty, name, remote, message);
  }

  /** What query k printed, or nothing when it failed. */
  function Reported(env: Env, k: nat): string {
    if Info(env, k).Done? then Info(env, k).value else ""
  }

  /** The identity queries of any run are a prefix of the three planned ones. */
  lemma IdentityPrefix(env: Env)
    ensures var t := ReadIdentity(env).trace;
      t <= [Query(BRANCH_QUERY), Query(RemoteQuery(Reported(env, 0))), Query(EMAIL_QUERY)]
  {
  }
}

=== FILE: file_watcher.dfy ===
/**
 The lock-wait primitive: block until a debounced filesystem watcher reports a
 removal. The watcher and its channel are replaced by a script: whether the
 watcher can be created, whether the watch on the path is accepted, and the
 finite sequence of receptions the channel delivers. A script that runs out
 while the loop is still waiting stands for a wait that has not ended.
 */
module FileWatcher {

  import opened Wrappers

  type Path = string

  /** The debounced event kinds the watcher delivers. */
  datatype DebouncedEvent =
    | NoticeWrite(path: Path)
    | NoticeRemove(path: Path)
    | Create(path: Path)
    | Write(path: Path)
    | Chmod(path: Path)
    | Remove(path: Path)
    | Rename(from: Path, to: Path)
    | Rescan
    | Error(message: string, errorPath: Option<Path>)

  /** One call to `recv` on the channel: an event, or the channel's error. */
  datatype Reception = Received(event: DebouncedEvent) | Disconnected

  /** The scripted behaviour of the watcher for one wait. */
  datatype WatchScript = WatchScript(watcherCreated: bool, watchAccepted: bool, incoming: seq<Reception>)

  /** Why the wait ended, or that it has not ended. */
  datatype WaitEnd =
    | Panicked            // the watcher could not be created: `unwrap` panics
    | WatchRefused        // the watch on the path failed: return at once
    | Removed(path: Path) // a removal notice arrived (for any path)
    | ChannelClosed       // `recv` failed: return at once
    | StillWaiting        // every scripted reception was consumed without a stop

  /** How many receptions the wait consumed, and how it ended. */
  datatype WaitResult = WaitResult(consumed: nat, end: WaitEnd)

  /** A reception that ends the receive loop. */
  predicate Stops(x: Reception) {
    x.Disconnected? || (x.Received? && x.event.NoticeRemove?)
  }

  predicate NoStop(s: seq<Reception>) {
    forall i :: 0 <= i < |s| ==> !Stops(s[i])
  }

  /** The loop's exit for a stopping reception. */
  function StopEnd(x: Reception): WaitEnd
    requires Stops(x)
  {
    if x.Disconnected? then ChannelClosed else Removed(x.event.path)
  }

  /** The receive loop: skip every non-removal event, return on the first
      removal notice or channel error. The result consumes exactly the
      receptions up to and including the first stopping one. */
  function Listen(incoming: seq<Reception>): (r: WaitResult)
    ensures r.consumed <= |incoming|
    ensures r.end.StillWaiting? ==> r.consumed == |incoming| && NoStop(incoming)
    ensures !r.end.StillWaiting? ==>
              && 0 < r.consumed
              && NoStop(incoming[..r.consumed - 1])
              && Stops(incoming[r.consumed - 1])
              && r.end == StopEnd(incoming[r.consumed - 1])
  {
    if |incoming| == 0 then WaitResult(0, StillWaiting)
    else if Stops(incoming[0]) then WaitResult(1, StopEnd(incoming[0]))
    else
      var t := Listen(incoming[1..]);
      assert t.end.StillWaiting? || incoming[..t.consumed + 1] == [incoming[0]] + incoming[1..][..t.consumed];
      WaitResult(t.consumed + 1, t.end)
  }

  /** `wait_until_deleted`: create the watcher (panicking if that fails), watch
      the path (returning at once if that fails), then run the receive loop.
      Nothing is reported back: every end other than a panic just returns. */
  function WaitUntilDeleted(path: Path, script: WatchScript): (r: WaitResult)
    ensures !script.watcherCreated ==> r == WaitResult(0, Panicked)
    ensures script.watcherCreated && !script.watchAccepted ==> r == WaitResult(0, WatchRefused)
    ensures script.watcherCreated && script.watchAccepted ==> r == Listen(script.incoming)
  {
    if !script.watcherCreated then WaitResult(0, Panicked)
    else if !script.watchAccepted then WaitResult(0, WatchRefused)
    else Listen(script.incoming)
  }

  /** Receptions after the stopping one are never consumed and change nothing. */
  lemma {:induction false} LaterReceptionsIgnored(incoming: seq<Reception>, later: seq<Reception>)
    requires !Listen(incoming).end.StillWaiting?
    ensures Listen(incoming + later) == Listen(incoming)
  {
    assert (incoming + later)[0] == incoming[0];
    match incoming[0]
    case Disconnected =>
    case Received(e) =>
      if !e.NoticeRemove? {
        assert (incoming + later)[1..] == incoming[1..] + later;
        LaterReceptionsIgnored(incoming[1..], later);
      }
  }

  /** Non-stopping receptions are skipped one by one: the wait over
      `skipped + rest` ends as the wait over `rest` does, after consuming the
      skipped receptions as well. */
  lemma {:induction false} NonStoppingSkipped(skipped: seq<Reception>, rest: seq<Reception>)
    requires NoStop(skipped)
    ensures Listen(skipped + rest) == WaitResult(|skipped| + Listen(rest).consumed, Listen(rest).end)
  {
    if |skipped| > 0 {
      assert (skipped + rest)[0] == skipped[0];
      assert !Stops(skipped[0]);
      assert (skipped + rest)[1..] == skipped[1..] + rest;
      NonStoppingSkipped(skipped[1..], rest);
    } else {
      assert skipped + rest == rest;
    }
  }

  /** A removal notice for any path ends the wait, wherever it is announced. */
  lemma RemovalOfAnyPathReturns(path: Path, other: Path, skipped: seq<Reception>, rest: seq<Reception>)
    requires NoStop(skipped)
    ensures WaitUntilDeleted(path, WatchScript(true, true, skipped + [Received(NoticeRemove(other))] + rest))
            == WaitResult(|skipped| + 1, Removed(other))
  {
    var stop := Received(NoticeRemove(other));
    var after := [stop] + rest;
    assert after[0] == stop;
    assert Listen(after) == WaitResult(1, Removed(other));
    NonStoppingSkipped(skipped, after);
    assert skipped + [stop] + rest == skipped + after;
  }

  /** The wait returns to its caller: the watcher was created, and either the
      watch was refused or some scripted reception stops the loop. */
  predicate WaitReturns(script: WatchScript) {
    script.watcherCreated && (!script.watchAccepted || !NoStop(script.incoming))
  }

  /** The wait neither panics nor keeps waiting exactly when `WaitReturns`
      holds, whatever path is watched. */
  lemma WaitReturnsIff(path: Path, script: WatchScript)
    ensures WaitReturns(script) <==>
              var e := WaitUntilDeleted(path, script).end;
              !e.Panicked? && !e.StillWaiting?
  {
    if script.watcherCreated && script.watchAccepted {
      var r := Listen(script.incoming);
      if r.end.StillWaiting? {
        assert NoStop(script.incoming);
      } else {
        assert Stops(script.incoming[r.consumed - 1]);
      }
    }
  }
}

=== FILE: git.dfy ===
/**
 The command runner: how the procedure talks to git. The environment is a
 script indexed by trace position: the reply of the process started at
 position k, whether the lock file exists when it is probed at position k,
 the watcher's behaviour for a wait recorded at position k, and the clock.
 Every function here takes the trace so far and returns it extended with what
 it did, together with its status.
 */
module Git {

  import opened Wrappers
  import opened Utf8
  import opened Text
  import opened FileWatcher

  type u64 = x: int | 0 <= x < 0x1_0000_0000_0000_0000

  /** What running a git process produced. `SpawnFailed` and `WaitFailed` are
      the I/O errors of starting the process and of waiting for it; otherwise
      the process exited with some status and wrote `stdout`. */
  datatype Reply = SpawnFailed | WaitFailed | Exited(status: int, stdout: seq<byte>)

  /** The system clock, read as whole seconds since the Unix epoch. */
  datatype Clock = BeforeEpoch | Since(seconds: u64)

  datatype Env = Env(
    reply: nat -> Reply,
    lockPresent: nat -> bool,
    watch: nat -> WatchScript,
    clock: Clock)

  /** One entry of the trace of a run. */
  datatype Action =
    | Query(args: seq<string>)                  // `output_git_command`: stdout captured
    | Spawn(args: seq<string>)                  // `spawn_git_command`: stdout inherited
    | ProbeLock(path: Path)                     // `lock_path.exists()`
    | AwaitLock(path: Path, wait: WaitResult)   // `wait_until_deleted(lock_path)`

  datatype Error = SpawnError | WaitError | InvalidUtf8 | ClockError

  /** Why a run stopped early: an error returned to the caller, a panic, or a
      wait for the lock that has not ended by the end of the script. */
  datatype Halt = Err(error: Error) | Panic | Stuck

  datatype Status<+T> = Done(value: T) | Halted(reason: Halt)

  datatype Run<+T> = Run(trace: seq<Action>, status: Status<T>)

  const REV_PARSE: seq<string> := ["rev-parse", "--show-toplevel"]
  const LOCK_FILE: Path := ".git/index.lock"

  /** `read_git_info`: strict UTF-8 decoding, then `trim_end`. */
  function ReadGitInfo(stdout: seq<byte>): (r: Status<string>)
    ensures r.Done? <==> Decode(stdout).Some?
    ensures !r.Done? ==> r == Halted(Err(InvalidUtf8))
    ensures r.Done? ==>
              && r.value <= Decode(stdout).value
              && EndsClean(r.value)
              && AllWhitespace(Decode(stdout).value[|r.value|..])
  {
    match Decode(stdout)
    case None => Halted(Err(InvalidUtf8))
    case Some(text) => Done(TrimEnd(text))
  }

  /** Well-formed output is read back as its text with trailing whitespace
      removed: every trailing newline, carriage return, space or tab goes. */
  lemma {:induction false} ReadGitInfoOfText(text: string)
    ensures ReadGitInfo(Encode(text)) == Done(TrimEnd(text))
  {
    DecodeEncode(text);
  }

  /** The output is accepted exactly when it is the UTF-8 encoding of some
      text, and that text is then the one trimmed. */
  lemma ReadGitInfoAcceptsEncodings(stdout: seq<byte>)
    ensures ReadGitInfo(stdout).Done? <==> exists text :: Encode(text) == stdout
    ensures ReadGitInfo(stdout).Done? ==> Encode(Decode(stdout).value) == stdout
  {
    EncodeDecode(stdout);
    if exists text :: Encode(text) == stdout {
      var text :| Encode(text) == stdout;
      DecodeEncode(text);
    }
  }

  /** Output holding a byte that is never valid UTF-8 is an error, whatever
      precedes and follows it. */
  lemma {:induction false} ReadGitInfoRejects(prefix: string, rest: seq<byte>)
    ensures ReadGitInfo(Encode(prefix) + [0xFF] + rest) == Halted(Err(InvalidUtf8))
  {
    InvalidByteRejected(prefix, rest);
  }

  /** Reading back what was read changes nothing: the trim is idempotent. */
  lemma {:induction false} ReadGitInfoIdempotent(stdout: seq<byte>)
    ensures ReadGitInfo(stdout).Done? ==> ReadGitInfo(Encode(ReadGitInfo(stdout).value)) == ReadGitInfo(stdout)
  {
    if ReadGitInfo(stdout).Done? {
      var text := Decode(stdout).value;
      ReadGitInfoOfText(TrimEnd(text));
      TrimEndIdempotent(text);
    }
  }

  /** Line endings of either kind are removed. */
  lemma ReadGitInfoExamples()
    ensures ReadGitInfo(Encode("main\n")) == Done("main")
    ensures ReadGitInfo(Encode("main\r\n")) == Done("main")
  {
    ReadGitInfoOfText("main\n");
    TrimEndUnique("main\n", "main");
    ReadGitInfoOfText("main\r\n");
    TrimEndUnique("main\r\n", "main");
  }

  /** Runs of blanks and line endings are removed, and a blank line reads as
      nothing. */
  lemma ReadGitInfoBlankExamples()
    ensures ReadGitInfo(Encode("a b \t\n\n")) == Done("a b")
    ensures ReadGitInfo(Encode(" \n")) == Done("")
  {
    ReadGitInfoOfText("a b \t\n\n");
    TrimEndUnique("a b \t\n\n", "a b");
    ReadGitInfoOfText(" \n");
    TrimEndUnique(" \n", "");
  }

  /** What `output_git_command` yields for the process started at position k.
      The exit status is not looked at. */
  function Info(env: Env, k: nat): (r: Status<string>)
    ensures env.reply(k).SpawnFailed? ==> r == Halted(Err(SpawnError))
    ensures env.reply(k).WaitFailed? ==> r == Halted(Err(WaitError))
    ensures env.reply(k).Exited? ==> r == ReadGitInfo(env.reply(k).stdout)
  {
    match env.reply(k)
    case SpawnFailed => Halted(Err(SpawnError))
    case WaitFailed => Halted(Err(WaitError))
    case Exited(_, out) => ReadGitInfo(out)
  }

  /** What `spawn_git_command` yields once the process at position k has been
      started and waited for. The exit status is not looked at. */
  function SpawnStatus(env: Env, k: nat): (r: Status<()>)
    ensures r.Done? <==> env.reply(k).Exited?
    ensures r.Halted? ==> r.reason in {Err(SpawnError), Err(WaitError)}
    ensures env.reply(k).SpawnFailed? ==> r == Halted(Err(SpawnError))
    ensures env.reply(k).WaitFailed? ==> r == Halted(Err(WaitError))
  {
    match env.reply(k)
    case SpawnFailed => Halted(Err(SpawnError))
    case WaitFailed => Halted(Err(WaitError))
    case Exited(_, _) => Done(())
  }

  /** How the action at position i of a trace stops the run, if it does. */
  function HaltOf(env: Env, i: nat, a: Action): Option<Halt> {
    match a
    case Query(_) => if Info(env, i).Done? then None else Some(Info(env, i).reason)
    case Spawn(_) => if SpawnStatus(env, i).Done? then None else Some(SpawnStatus(env, i).reason)
    case ProbeLock(_) => None
    case AwaitLock(_, w) =>
      if w.end.Panicked? then Some(Panic)
      else if w.end.StillWaiting? then Some(Stuck)
      else None
  }

  /** No action of the trace stopped the run. */
  predicate Settled(env: Env, trace: seq<Action>) {
    forall i :: 0 <= i < |trace| ==> HaltOf(env, i, trace[i]).None?
  }

  /** The run stopped at the last action of the trace, which was the first to
      stop it, and `reason` is how. */
  predicate EndsAtFirstHalt(env: Env, trace: seq<Action>, reason: Halt) {
    && |trace| > 0
    && Settled(env, trace[..|trace| - 1])
    && HaltOf(env, |trace| - 1, trace[|trace| - 1]) == Some(reason)
  }

  /** A step that starts on trace `tr` and returns `r` only appends to the
      trace, and, when nothing before it stopped the run, either stops at its
      own last action or leaves the trace settled. */
  predicate Steps<T>(env: Env, tr: seq<Action>, r: Run<T>) {
    && tr <= r.trace
    && (Settled(env, tr) ==>
          if r.status.Done? then Settled(env, r.trace)
          else |tr| < |r.trace| && EndsAtFirstHalt(env, r.trace, r.status.reason))
  }

  /** The lock discipline at position i, looking back only: a spawn comes
      right after a lock probe that found no lock or right after a wait for the
      lock; a probe comes right after the top-level query and looks at
      `.git/index.lock` under the directory that query printed; a wait comes
      right after a probe of the same path that found the lock, and is the
      watcher's run on that path; a query comes first or right after a git
      command, never inside a lock check. */
  predicate GuardedAt(env: Env, trace: seq<Action>, i: nat)
    requires i < |trace|
  {
    match trace[i]
    case Query(_) => i == 0 || IsCommand(trace[i - 1])
    case Spawn(_) =>
      && 1 <= i
      && ((trace[i - 1].ProbeLock? && !env.lockPresent(i - 1)) || trace[i - 1].AwaitLock?)
    case ProbeLock(p) =>
      && 1 <= i
      && trace[i - 1] == Query(REV_PARSE)
      && Info(env, i - 1).Done?
      && p == LockPath(Info(env, i - 1).value)
    case AwaitLock(p, w) =>
      && 1 <= i
      && trace[i - 1] == ProbeLock(p)
      && env.lockPresent(i - 1)
      && w == WaitUntilDeleted(p, env.watch(i))
  }

  predicate Guarded(env: Env, trace: seq<Action>) {
    forall i :: 0 <= i < |trace| ==> GuardedAt(env, trace, i)
  }

  lemma SettledAppend(env: Env, tr: seq<Action>, a: Action)
    requires Settled(env, tr)
    ensures Settled(env, tr + [a]) <==> HaltOf(env, |tr|, a).None?
    ensures HaltOf(env, |tr|, a).Some? ==> EndsAtFirstHalt(env, tr + [a], HaltOf(env, |tr|, a).value)
  {
    var t := tr + [a];
    assert t[..|tr|] == tr;
    assert t[|tr|] == a;
    if HaltOf(env, |tr|, a).None? {
      forall i | 0 <= i < |t|
        ensures HaltOf(env, i, t[i]).None?
      {
        if i < |tr| { assert t[i] == tr[i]; }
      }
    }
  }

  /** A step that appends one action, with the status that action dictates. */
  lemma StepsAppend<T>(env: Env, tr: seq<Action>, a: Action, r: Run<T>)
    requires r.trace == tr + [a]
    requires r.status.Done? <==> HaltOf(env, |tr|, a).None?
    requires !r.status.Done? ==> HaltOf(env, |tr|, a) == Some(r.status.reason)
    ensures Steps(env, tr, r)
  {
    assert r.trace[..|tr|] == tr;
    if Settled(env, tr) {
      SettledAppend(env, tr, a);
    }
  }

  /** Two steps in a row, the first finishing normally, make one step. */
  lemma StepsThen<T, U>(env: Env, tr: seq<Action>, r1: Run<T>, r2: Run<U>)
    requires Steps(env, tr, r1) && r1.status.Done? && Steps(env, r1.trace, r2)
    ensures Steps(env, tr, r2)
  {
  }

  /** Changing only the value a step returns keeps it a step. */
  lemma StepsRetype<T, U>(env: Env, tr: seq<Action>, r1: Run<T>, r2: Run<U>)
    requires Steps(env, tr, r1)
    requires r2.trace == r1.trace
    requires r2.status.Done? <==> r1.status.Done?
    requires !r1.status.Done? ==> r2.status.reason == r1.status.reason
    ensures Steps(env, tr, r2)
  {
  }

  lemma GuardedAppend(env: Env, tr: seq<Action>, a: Action)
    ensures Guarded(env, tr) && GuardedAt(env, tr + [a], |tr|) ==> Guarded(env, tr + [a])
  {
    var t := tr + [a];
    if Guarded(env, tr) && GuardedAt(env, t, |tr|) {
      forall i | 0 <= i < |t|
        ensures GuardedAt(env, t, i)
      {
        if i < |tr| {
          assert t[i] == tr[i];
          assert i >= 1 ==> t[i - 1] == tr[i - 1];
          assert GuardedAt(env, tr, i);
        }
      }
    }
  }

  /** A git command of the procedure itself: a spawn, or a query other than
      the top-level query that starts a lock check. */
  predicate IsCommand(a: Action) {
    a.Spawn? || (a.Query? && a.args != REV_PARSE)
  }

  /** The trace is not in the middle of a lock check: it is empty or its last
      action is a git command. */
  predicate OutsideLockCheck(trace: seq<Action>) {
    |trace| == 0 || IsCommand(trace[|trace| - 1])
  }

  /** Looking forward: a git command is followed by another one or by the
      top-level query, that query by the probe, the probe by the wait or the
      spawn, and the wait by the spawn. Together with `Guarded`, each lock
      check is one unbroken block right before the spawn it guards. */
  predicate LockChecksContiguous(trace: seq<Action>) {
    forall j :: 0 <= j < |trace| - 1 ==>
      && (IsCommand(trace[j]) ==> IsCommand(trace[j + 1]) || trace[j + 1] == Query(REV_PARSE))
      && (trace[j] == Query(REV_PARSE) ==> trace[j + 1].ProbeLock?)
      && (trace[j].ProbeLock? ==> trace[j + 1].AwaitLock? || trace[j + 1].Spawn?)
      && (trace[j].AwaitLock? ==> trace[j + 1].Spawn?)
  }

  /** The backward discipline fixes what follows each action too. */
  lemma GuardedContiguous(env: Env, trace: seq<Action>)
    requires Guarded(env, trace)
    ensures LockChecksContiguous(trace)
  {
    forall j | 0 <= j < |trace| - 1
      ensures IsCommand(trace[j]) ==> IsCommand(trace[j + 1]) || trace[j + 1] == Query(REV_PARSE)
      ensures trace[j] == Query(REV_PARSE) ==> trace[j + 1].ProbeLock?
      ensures trace[j].ProbeLock? ==> trace[j + 1].AwaitLock? || trace[j + 1].Spawn?
      ensures trace[j].AwaitLock? ==> trace[j + 1].Spawn?
    {
      assert GuardedAt(env, trace, j + 1);
    }
  }

  /** Where the lock check that starts at j ends: at the spawn right after
      the probe, at the spawn right after the wait, or, unfinished, at the end
      of the trace. */
  lemma CheckEnds(trace: seq<Action>, j: nat)
    requires LockChecksContiguous(trace)
    requires j < |trace| && trace[j] == Query(REV_PARSE)
    ensures || (j + 2 < |trace| && trace[j + 2].Spawn?)
            || (j + 3 < |trace| && trace[j + 2].AwaitLock? && trace[j + 3].Spawn?)
            || (|trace| <= j + 3 && !OutsideLockCheck(trace))
  {
    if j + 1 < |trace| {
      assert trace[j + 1].ProbeLock?;
      if j + 2 < |trace| && trace[j + 2].AwaitLock? && j + 3 < |trace| {
        assert trace[j + 3].Spawn?;
      }
    }
  }

  /** The git commands of a trace other than the top-level queries that guard
      the mutating ones, in order. */
  function Commands(trace: seq<Action>): (r: seq<Action>)
    ensures |r| <= |trace|
  {
    if |trace| == 0 then []
    else
      var a := trace[|trace| - 1];
      var keep := if IsCommand(a) then [a] else [];
      Commands(trace[..|trace| - 1]) + keep
  }

  lemma {:induction false} CommandsAppend(a: seq<Action>, b: seq<Action>)
    ensures Commands(a + b) == Commands(a) + Commands(b)
    decreases |b|
  {
    if |b| > 0 {
      var ab := a + b;
      assert ab[..|ab| - 1] == a + b[..|b| - 1];
      assert ab[|ab| - 1] == b[|b| - 1];
      CommandsAppend(a, b[..|b| - 1]);
    } else {
      assert a + b == a;
    }
  }

  /** `Path::new(base).join(rel)` for a relative `rel` on a Unix system: a
      separator is inserted unless `base` is empty or already ends in one. */
  function JoinPath(base: Path, rel: Path): (r: Path)
    ensures base <= r
    ensures |r| >= |rel| && r[|r| - |rel|..] == rel
    ensures |base| > 0 && base[|base| - 1] != '/' ==> |r| == |base| + 1 + |rel| && r[|base|] == '/'
    ensures (|base| == 0 || base[|base| - 1] == '/') ==> |r| == |base| + |rel|
  {
    if |base| == 0 then rel
    else if base[|base| - 1] == '/' then base + rel
    else base + "/" + rel
  }

  /** `<root>/.git/index.lock`. */
  function LockPath(root: Path): (r: Path)
    ensures root <= r && |r| >= |LOCK_FILE| && r[|r| - |LOCK_FILE|..] == LOCK_FILE
    ensures |root| + |LOCK_FILE| <= |r| <= |root| + 1 + |LOCK_FILE|
    ensures |r| > |root| + |LOCK_FILE| <==> |root| > 0 && root[|root| - 1] != '/'
    ensures |r| > |root| + |LOCK_FILE| ==> r[|root|] == '/'
  {
    JoinPath(root, LOCK_FILE)
  }

  /** `output_git_command`: run git with `args`, capture and read its stdout.
      It adds the query alone, with no lock check before it, and the exit
      status does not matter: once git has exited, its output is read by
      `read_git_info`. */
  function OutputGitCommand(env: Env, tr: seq<Action>, args: seq<string>): (r: Run<string>)
    ensures tr <= r.trace && |r.trace| == |tr| + 1 && r.trace[|tr|] == Query(args)
    ensures env.reply(|tr|).Exited? ==> r.status == ReadGitInfo(env.reply(|tr|).stdout)
    ensures env.reply(|tr|).SpawnFailed? ==> r.status == Halted(Err(SpawnError))
    ensures env.reply(|tr|).WaitFailed? ==> r.status == Halted(Err(WaitError))
  {
    Run(tr + [Query(args)], Info(env, |tr|))
  }

  /** `wait_git_lock_released`: ask git for the top-level directory, then, if
      `<root>/.git/index.lock` exists, wait until it is deleted. Only the query
      can fail; the wait itself never reports an error, though it can panic
      or never end. */
  function WaitGitLockReleased(env: Env, tr: seq<Action>): (r: Run<()>)
    ensures r.status.Halted? && r.status.reason.Err? ==>
              r.trace == tr + [Query(REV_PARSE)] && Info(env, |tr|) == Halted(r.status.reason)
  {
    var root := OutputGitCommand(env, tr, REV_PARSE);
    if !root.status.Done? then Run(root.trace, Halted(root.status.reason))
    else
      var path := LockPath(root.status.value);
      var probed := root.trace + [ProbeLock(path)];
      if !env.lockPresent(|probed| - 1) then Run(probed, Done(()))
      else
        var w := WaitUntilDeleted(path, env.watch(|probed|));
        var status: Status<()> :=
          if w.end.Panicked? then Halted(Panic)
          else if w.end.StillWaiting? then Halted(Stuck)
          else Done(());
        Run(probed + [AwaitLock(path, w)], status)
  }

  /** `spawn_git_command`: wait for the lock to be released, then start git
      with `args` and wait for it to finish. */
  function SpawnGitCommand(env: Env, tr: seq<Action>, args: seq<string>): (r: Run<()>)
    ensures r.status.Done? ==> |r.trace| > 0 && r.trace[|r.trace| - 1] == Spawn(args)
  {
    var guard := WaitGitLockReleased(env, tr);
    if !guard.status.Done? then guard
    else Run(guard.trace + [Spawn(args)], SpawnStatus(env, |guard.trace|))
  }

  /** No lock probe at the end of the trace is still waiting for what follows it. */
  predicate ProbeResolved(trace: seq<Action>) {
    |trace| == 0 || !trace[|trace| - 1].ProbeLock?
  }

  /** A top-level query is a step that extends the trace by itself alone. */
  lemma OutputSteps(env: Env, tr: seq<Action>, args: seq<string>)
    ensures Steps(env, tr, OutputGitCommand(env, tr, args))
  {
    StepsAppend(env, tr, Query(args), OutputGitCommand(env, tr, args));
  }

  lemma OutputGuarded(env: Env, tr: seq<Action>, args: seq<string>)
    ensures var t := OutputGitCommand(env, tr, args).trace;
      && ProbeResolved(t)
      && (args != REV_PARSE ==> OutsideLockCheck(t))
      && (Guarded(env, tr) && OutsideLockCheck(tr) ==> Guarded(env, t))
  {
    GuardedAppend(env, tr, Query(args));
  }

  lemma OutputCommands(env: Env, tr: seq<Action>, args: seq<string>)
    ensures Commands(OutputGitCommand(env, tr, args).trace)
              == Commands(tr) + (if args == REV_PARSE then [] else [Query(args)])
  {
    CommandsAppend(tr, [Query(args)]);
  }

  /** The lock wait stops the run only at its own last action. */
  lemma WaitSteps(env: Env, tr: seq<Action>)
    ensures Steps(env, tr, WaitGitLockReleased(env, tr))
  {
    var root := OutputGitCommand(env, tr, REV_PARSE);
    OutputSteps(env, tr, REV_PARSE);
    if root.status.Done? {
      var path := LockPath(root.status.value);
      var probed := root.trace + [ProbeLock(path)];
      var pr := Run(probed, Done(()));
      StepsAppend(env, root.trace, ProbeLock(path), pr);
      StepsThen(env, tr, root, pr);
      if env.lockPresent(|probed| - 1) {
        var w := WaitUntilDeleted(path, env.watch(|probed|));
        var r := WaitGitLockReleased(env, tr);
        StepsAppend(env, probed, AwaitLock(path, w), r);
        StepsThen(env, tr, pr, r);
      }
    }
  }

  /** The lock wait keeps the lock discipline; when it finishes normally the
      trace ends in a probe that found no lock or in a wait for the lock. */
  lemma WaitGuarded(env: Env, tr: seq<Action>)
    ensures var r := WaitGitLockReleased(env, tr);
      && (Guarded(env, tr) && OutsideLockCheck(tr) ==> Guarded(env, r.trace))
      && (!r.status.Done? ==> ProbeResolved(r.trace))
      && (r.status.Done? ==>
            && |r.trace| > 0
            && (|| (r.trace[|r.trace| - 1].ProbeLock? && !env.lockPresent(|r.trace| - 1))
                || r.trace[|r.trace| - 1].AwaitLock?))
  {
    var root := OutputGitCommand(env, tr, REV_PARSE);
    OutputGuarded(env, tr, REV_PARSE);
    if root.status.Done? {
      var path := LockPath(root.status.value);
      var probed := root.trace + [ProbeLock(path)];
      GuardedAppend(env, root.trace, ProbeLock(path));
      if env.lockPresent(|probed| - 1) {
        var w := WaitUntilDeleted(path, env.watch(|probed|));
        GuardedAppend(env, probed, AwaitLock(path, w));
      }
    }
  }

  /** Only lock probes and lock waits. */
  predicate LockActions(s: seq<Action>) {
    forall i :: 0 <= i < |s| ==> s[i].ProbeLock? || s[i].AwaitLock?
  }

  lemma {:induction false} LockActionsNoCommands(s: seq<Action>)
    requires LockActions(s)
    ensures Commands(s) == []
    decreases |s|
  {
    if |s| > 0 {
      assert LockActions(s[..|s| - 1]);
      LockActionsNoCommands(s[..|s| - 1]);
    }
  }

  /** The lock wait appends the top-level query and then lock actions only. */
  lemma WaitTrace(env: Env, tr: seq<Action>)
    ensures var t := WaitGitLockReleased(env, tr).trace;
      && |tr| < |t|
      && t[..|tr| + 1] == tr + [Query(REV_PARSE)]
      && LockActions(t[|tr| + 1..])
  {
  }

  /** The lock wait issues no git command besides the top-level query. */
  lemma WaitCommands(env: Env, tr: seq<Action>)
    ensures Commands(WaitGitLockReleased(env, tr).trace) == Commands(tr)
  {
    var t := WaitGitLockReleased(env, tr).trace;
    WaitTrace(env, tr);
    var head, rest := t[..|tr| + 1], t[|tr| + 1..];
    assert t == head + rest;
    CommandsAppend(head, rest);
    LockActionsNoCommands(rest);
    CommandsAppend(tr, [Query(REV_PARSE)]);
    assert Commands([Query(REV_PARSE)]) == [];
  }

  lemma SpawnSteps(env: Env, tr: seq<Action>, args: seq<string>)
    ensures Steps(env, tr, SpawnGitCommand(env, tr, args))
  {
    var guard := WaitGitLockReleased(env, tr);
    WaitSteps(env, tr);
    if guard.status.Done? {
      var r := SpawnGitCommand(env, tr, args);
      StepsAppend(env, guard.trace, Spawn(args), r);
      StepsThen(env, tr, guard, r);
    }
  }

  lemma SpawnGuarded(env: Env, tr: seq<Action>, args: seq<string>)
    ensures var r := SpawnGitCommand(env, tr, args);
      && ProbeResolved(r.trace)
      && (r.status.Done? ==> OutsideLockCheck(r.trace))
      && (Guarded(env, tr) && OutsideLockCheck(tr) ==> Guarded(env, r.trace))
  {
    var guard := WaitGitLockReleased(env, tr);
    WaitGuarded(env, tr);
    if guard.status.Done? {
      GuardedAppend(env, guard.trace, Spawn(args));
    }
  }

  /** A mutating command issues exactly that command when it finishes, and at
      most that command otherwise. */
  lemma SpawnCommands(env: Env, tr: seq<Action>, args: seq<string>)
    ensures var r := SpawnGitCommand(env, tr, args);
      && (r.status.Done? ==> Commands(r.trace) == Commands(tr) + [Spawn(args)])
      && (Commands(r.trace) == Commands(tr) || Commands(r.trace) == Commands(tr) + [Spawn(args)])
  {
    var guard := WaitGitLockReleased(env, tr);
    WaitCommands(env, tr);
    if guard.status.Done? {
      CommandsAppend(guard.trace, [Spawn(args)]);
    }
  }

  /** A mutating command whose trace ends inside its lock check stopped the
      run there, before issuing anything. */
  lemma SpawnPending(env: Env, tr: seq<Action>, args: seq<string>)
    ensures var r := SpawnGitCommand(env, tr, args);
      !OutsideLockCheck(r.trace) ==> !r.status.Done? && Commands(r.trace) == Commands(tr)
  {
    var guard := WaitGitLockReleased(env, tr);
    if !guard.status.Done? {
      WaitCommands(env, tr);
    }
  }

  /** In a guarded trace every spawn is preceded by the top-level query, then
      a probe of `.git/index.lock` under the printed directory, then either
      nothing (the probe found no lock) or the wait for that same lock. */
  lemma SpawnPreceded(env: Env, trace: seq<Action>, i: nat)
    requires Guarded(env, trace) && i < |trace| && trace[i].Spawn?
    ensures 1 <= i && (trace[i - 1].ProbeLock? || trace[i - 1].AwaitLock?)
    ensures trace[i - 1].ProbeLock? ==>
              && 2 <= i
              && trace[i - 2] == Query(REV_PARSE)
              && Info(env, i - 2).Done?
              && trace[i - 1] == ProbeLock(LockPath(Info(env, i - 2).value))
              && !env.lockPresent(i - 1)
    ensures trace[i - 1].AwaitLock? ==>
              && 3 <= i
              && trace[i - 3] == Query(REV_PARSE)
              && Info(env, i - 3).Done?
              && trace[i - 2] == ProbeLock(LockPath(Info(env, i - 3).value))
              && env.lockPresent(i - 2)
              && trace[i - 1] == AwaitLock(trace[i - 2].path, WaitUntilDeleted(trace[i - 2].path, env.watch(i - 1)))
  {
    assert GuardedAt(env, trace, i);
    assert GuardedAt(env, trace, i - 1);
    if trace[i - 1].AwaitLock? {
      assert GuardedAt(env, trace, i - 2);
    }
  }

  /** The lock check before a spawn, as `SpawnPreceded` states it, and in
      addition: when nothing before the spawn stopped the run, a wait for the
      lock that precedes it returned normally. */
  lemma SpawnAfterLockCheck(env: Env, trace: seq<Action>, i: nat)
    requires Guarded(env, trace) && i < |trace| && trace[i].Spawn?
    requires 1 <= i ==> HaltOf(env, i - 1, trace[i - 1]).None?
    ensures 2 <= i && (trace[i - 1].ProbeLock? || trace[i - 1].AwaitLock?)
    ensures trace[i - 1].ProbeLock? ==>
              && trace[i - 2] == Query(REV_PARSE)
              && Info(env, i - 2).Done?
              && trace[i - 1] == ProbeLock(LockPath(Info(env, i - 2).value))
              && !env.lockPresent(i - 1)
    ensures trace[i - 1].AwaitLock? ==>
              && 3 <= i
              && trace[i - 3] == Query(REV_PARSE)
              && Info(env, i - 3).Done?
              && trace[i - 2] == ProbeLock(LockPath(Info(env, i - 3).value))
              && env.lockPresent(i - 2)
              && trace[i - 1].wait == WaitUntilDeleted(trace[i - 2].path, env.watch(i - 1))
              && !trace[i - 1].wait.end.Panicked?
              && !trace[i - 1].wait.end.StillWaiting?
  {
    SpawnPreceded(env, trace, i);
  }
}

=== FILE: observation_properties.dfy ===
/**
 What a run never looks at. Git's exit status is never inspected: two
 environments that differ only in the exit statuses of the git processes
 produce the same run, trace and outcome alike.
 */
module ObservationProperties {

  import opened Git
  import opened Earthquake
  import Config

  /** Two replies that differ at most in the exit status. */
  predicate SameOutput(a: Reply, b: Reply) {
    a == b || (a.Exited? && b.Exited? && a.stdout == b.stdout)
  }

  /** Two environments that differ at most in the exit statuses of git. */
  ghost predicate SameButExitStatus(e1: Env, e2: Env) {
    && e1.clock == e2.clock
    && (forall k: nat :: SameOutput(e1.reply(k), e2.reply(k)))
    && (forall k: nat :: e1.lockPresent(k) == e2.lockPresent(k))
    && (forall k: nat :: e1.watch(k) == e2.watch(k))
  }

  /** Both ways of running git yield the same status whatever the exit status. */
  lemma StatusesAgree(e1: Env, e2: Env, k: nat)
    requires SameOutput(e1.reply(k), e2.reply(k))
    ensures Info(e1, k) == Info(e2, k)
    ensures SpawnStatus(e1, k) == SpawnStatus(e2, k)
  {
  }

  lemma OutputAgrees(e1: Env, e2: Env, tr: seq<Action>, args: seq<string>)
    requires SameButExitStatus(e1, e2)
    ensures OutputGitCommand(e1, tr, args) == OutputGitCommand(e2, tr, args)
  {
    StatusesAgree(e1, e2, |tr|);
  }

  lemma WaitAgrees(e1: Env, e2: Env, tr: seq<Action>)
    requires SameButExitStatus(e1, e2)
    ensures WaitGitLockReleased(e1, tr) == WaitGitLockReleased(e2, tr)
  {
    OutputAgrees(e1, e2, tr, REV_PARSE);
    assert e1.lockPresent(|tr| + 1) == e2.lockPresent(|tr| + 1);
    assert e1.watch(|tr| + 2) == e2.watch(|tr| + 2);
  }

  lemma SpawnAgrees(e1: Env, e2: Env, tr: seq<Action>, args: seq<string>)
    requires SameButExitStatus(e1, e2)
    ensures SpawnGitCommand(e1, tr, args) == SpawnGitCommand(e2, tr, args)
  {
    WaitAgrees(e1, e2, tr);
    var guard := WaitGitLockReleased(e1, tr);
    StatusesAgree(e1, e2, |guard.trace|);
  }

  lemma IdentityAgrees(e1: Env, e2: Env)
    requires SameButExitStatus(e1, e2)
    ensures ReadIdentity(e1) == ReadIdentity(e2)
  {
    StatusesAgree(e1, e2, 0);
    StatusesAgree(e1, e2, 1);
    StatusesAgree(e1, e2, 2);
  }

  lemma SaveChangesAgrees(e1: Env, e2: Env, tr: seq<Action>, name: string, remote: string, message: string)
    requires SameButExitStatus(e1, e2)
    ensures SaveChanges(e1, tr, name, remote, message) == SaveChanges(e2, tr, name, remote, message)
  {
    SpawnAgrees(e1, e2, tr, CheckoutArgs(name));
    var checkout := SpawnGitCommand(e1, tr, CheckoutArgs(name));
    if checkout.status.Done? {
      OutputAgrees(e1, e2, checkout.trace, STATUS_QUERY);
      var changes := AnyUncommittedChanges(e1, checkout.trace);
      if changes.status.Done? {
        var saved := if changes.status.value then AddAndCommit(e1, changes.trace, message) else Run(changes.trace, Done(()));
        if changes.status.value {
          SpawnAgrees(e1, e2, changes.trace, ADD_ARGS);
          var add := SpawnGitCommand(e1, changes.trace, ADD_ARGS);
          if add.status.Done? {
            SpawnAgrees(e1, e2, add.trace, CommitArgs(message));
          }
        }
        if saved.status.Done? {
          SpawnAgrees(e1, e2, saved.trace, PushArgs(name, remote));
        }
      }
    }
  }

  /** The exit status of git is never looked at: a run depends only on what
      the processes printed, whether they could be started and waited for,
      the lock, the watcher and the clock. */
  lemma ExitStatusIgnored(e1: Env, e2: Env, config: Config.Config)
    requires SameButExitStatus(e1, e2)
    ensures EarthquakeProcedure(e1, config) == EarthquakeProcedure(e2, config)
  {
    IdentityAgrees(e1, e2);
    var id := ReadIdentity(e1);
    if id.status.Done? && e1.clock.Since? {
      var name := BranchName(id.status.value.branch, id.status.value.email, e1.clock.seconds);
      SaveChangesAgrees(e1, e2, id.trace, name, id.status.value.remote, config.commitMessage);
    }
  }
}

=== FILE: run_properties.dfy ===
/**
 End-to-end properties of one earthquake run, stated over every scripted
 environment: where a run stops, what precedes each mutating command, the
 commands of a successful run in order, when a run is bound to succeed, and
 what the run never looks at.
 */
module RunProperties {

  import opened Utf8
  import opened Text
  import opened FileWatcher
  import opened Git
  import opened Earthquake
  import opened EarthquakeProperties
  import Config

  /** Abort on the first failure: a successful run has no failing action; any
      other run stops at its last action, the first one that failed, so no
      git command follows the failure. The only exception is the clock, read
      after the three identity queries all succeeded. */
  lemma RunStopsAtFirstHalt(env: Env, config: Config.Config)
    ensures var r := EarthquakeProcedure(env, config);
      && (r.status.Done? ==> Settled(env, r.trace) && env.clock.Since?)
      && (r.status.Halted? && r.status.reason != Err(ClockError) ==>
            EndsAtFirstHalt(env, r.trace, r.status.reason))
      && (r.status == Halted(Err(ClockError)) <==> ReadIdentity(env).status.Done? && env.clock.BeforeEpoch?)
  {
    var r := EarthquakeProcedure(env, config);
    var id := ReadIdentity(env);
    ProcedureSteps(env, config);
    ProcedureUnfold(env, config);
    assert Settled(env, []);
    if id.status.Done? && env.clock.Since? {
      var name := BranchName(id.status.value.branch, id.status.value.email, env.clock.seconds);
      SaveChangesNeverClockError(env, id.trace, name, id.status.value.remote, config.commitMessage);
    }
    if !id.status.Done? {
      IdentityStatusNotClock(env);
    }
  }

  /** The identity queries fail only by a spawn, wait or decoding error. */
  lemma IdentityStatusNotClock(env: Env)
    ensures ReadIdentity(env).status != Halted(Err(ClockError))
  {
  }

  /** Every mutating command of a run comes right after the lock check: the
      top-level query, a probe of `<root>/.git/index.lock`, and, only when the
      lock was there, a wait on it that returned normally. */
  lemma SpawnsFollowLockCheck(env: Env, config: Config.Config, i: nat)
    requires var t := EarthquakeProcedure(env, config).trace; i < |t| && t[i].Spawn?
    ensures var t := EarthquakeProcedure(env, config).trace;
      && 2 <= i
      && (t[i - 1].ProbeLock? || t[i - 1].AwaitLock?)
      && (t[i - 1].ProbeLock? ==>
            && t[i - 2] == Query(REV_PARSE)
            && Info(env, i - 2).Done?
            && t[i - 1] == ProbeLock(LockPath(Info(env, i - 2).value))
            && !env.lockPresent(i - 1))
      && (t[i - 1].AwaitLock? ==>
            && 3 <= i
            && t[i - 3] == Query(REV_PARSE)
            && Info(env, i - 3).Done?
            && t[i - 2] == ProbeLock(LockPath(Info(env, i - 3).value))
            && env.lockPresent(i - 2)
            && t[i - 1].wait == WaitUntilDeleted(t[i - 2].path, env.watch(i - 1))
            && !t[i - 1].wait.end.Panicked?
            && !t[i - 1].wait.end.StillWaiting?)
  {
    var t := EarthquakeProcedure(env, config).trace;
    assert Guarded(env, t) by {
      ProcedureGuarded(env, config);
    }
    assert 1 <= i ==> HaltOf(env, i - 1, t[i - 1]).None? by {
      if 1 <= i {
        EarlierActionsSettled(env, config, i - 1);
      }
    }
    SpawnAfterLockCheck(env, t, i);
  }

  /** Each lock check of a run is one unbroken block right before the spawn
      it guards: a captured query is never followed by a lock action, the
      top-level query is followed by the probe, the probe by the wait or the
      spawn, and the wait by the spawn. No run ends on a probe. */
  lemma LockChecksUnbroken(env: Env, config: Config.Config)
    ensures var t := EarthquakeProcedure(env, config).trace;
      LockChecksContiguous(t) && ProbeResolved(t)
  {
    var t := EarthquakeProcedure(env, config).trace;
    assert Guarded(env, t) && ProbeResolved(t) by {
      ProcedureGuarded(env, config);
    }
    GuardedContiguous(env, t);
  }

  /** No action of a run before its last one stopped it. */
  lemma EarlierActionsSettled(env: Env, config: Config.Config, j: nat)
    requires j + 1 < |EarthquakeProcedure(env, config).trace|
    ensures var t := EarthquakeProcedure(env, config).trace;
      HaltOf(env, j, t[j]).None?
  {
    var r := EarthquakeProcedure(env, config);
    ProcedureSteps(env, config);
    RunStopsAtFirstHalt(env, config);
    if r.status.Halted? && r.status.reason != Err(ClockError) {
      assert r.trace[..|r.trace| - 1][j] == r.trace[j];
    }
  }

  /** On success: the three identity queries succeeded and the clock was
      read; the git commands, leaving out the top-level queries of the lock
      checks, are exactly the plan: the branch query, the remote query for
      that branch, the email query, the checkout of the new branch, the
      status query, the add and commit exactly when the status output
      (trimmed) was non-empty, and the push of that same branch to the remote
      the remote query printed. */
  lemma SuccessfulRunOrder(env: Env, config: Config.Config)
    ensures var r := EarthquakeProcedure(env, config);
      r.status.Done? ==>
        && env.clock.Since?
        && Info(env, 0).Done? && Info(env, 1).Done? && Info(env, 2).Done?
        && exists k :: 3 < k < |r.trace| && r.trace[k] == Query(STATUS_QUERY) && Info(env, k).Done? &&
             Commands(r.trace) == Plan(Info(env, 0).value, Info(env, 1).value, Info(env, 2).value,
                                       env.clock.seconds, Info(env, k).value != "", config.commitMessage)
  {
    var r := EarthquakeProcedure(env, config);
    var id := ReadIdentity(env);
    if r.status.Done? {
      assert id.status.Done? && env.clock.Since? by {
        ProcedureUnfold(env, config);
      }
      var v := id.status.value;
      var queries := [Query(BRANCH_QUERY), Query(RemoteQuery(v.branch)), Query(EMAIL_QUERY)];
      var name := BranchName(v.branch, v.email, env.clock.seconds);
      assert Info(env, 0) == Done(v.branch) && Info(env, 1) == Done(v.remote) && Info(env, 2) == Done(v.email)
             && id.trace == queries by {
        IdentityTrace(env);
      }
      assert r == SaveChanges(env, queries, name, v.remote, config.commitMessage) by {
        ProcedureUnfold(env, config);
      }
      SuccessAfterIdentity(env, v.branch, v.remote, v.email, env.clock.seconds, config.commitMessage);
    }
  }

  /** SuccessfulRunOrder once the identity queries have succeeded. */
  lemma SuccessAfterIdentity(env: Env, branch: string, remote: string, email: string, epoch: nat, message: string)
    ensures var queries := [Query(BRANCH_QUERY), Query(RemoteQuery(branch)), Query(EMAIL_QUERY)];
      var r := SaveChanges(env, queries, BranchName(branch, email, epoch), remote, message);
      r.status.Done? ==>
        exists k :: 3 < k < |r.trace| && r.trace[k] == Query(STATUS_QUERY) && Info(env, k).Done? &&
          Commands(r.trace) == Plan(branch, remote, email, epoch, Info(env, k).value != "", message)
  {
    var queries := [Query(BRANCH_QUERY), Query(RemoteQuery(branch)), Query(EMAIL_QUERY)];
    var name := BranchName(branch, email, epoch);
    IdentityCommands(branch);
    SaveChangesCommands(env, queries, name, remote, message);
    forall dirty: bool
      ensures queries + SavePlan(name, remote, message, dirty) == Plan(branch, remote, email, epoch, dirty, message)
    {
    }
  }

  /** The planned checkout is the fourth command and the planned push the last. */
  lemma PlanEnds(branch: string, remote: string, email: string, epoch: nat, dirty: bool, message: string)
    ensures var p := Plan(branch, remote, email, epoch, dirty, message);
      var name := BranchName(branch, email, epoch);
      && 5 < |p|
      && p[3] == Spawn(CheckoutArgs(name))
      && p[|p| - 1] == Spawn(PushArgs(name, remote))
  {
  }

  /** The seconds the clock shows, or zero before the epoch. */
  function Seconds(clock: Clock): nat {
    if clock.Since? then clock.seconds else 0
  }

  /** The git commands of `trace` are a prefix of the planned ones: the
      identity queries, the checkout of the branch named after them and the
      epoch, the status query, add and commit exactly when the status reply
      is non-empty, and the push. Before the status query is reached both
      plans agree; past it, the reply decides which one the trace follows. */
  ghost predicate FollowsPlan(env: Env, trace: seq<Action>, branch: string, remote: string, email: string,
                              epoch: nat, message: string) {
    var c := Commands(trace);
    && (|c| <= 5 ==> c <= Plan(branch, remote, email, epoch, false, message))
    && (|c| > 5 ==>
          exists k :: 3 < k < |trace| && trace[k] == Query(STATUS_QUERY) && Info(env, k).Done? &&
            c <= Plan(branch, remote, email, epoch, Info(env, k).value != "", message))
  }

  /** Every run, whatever its outcome, follows the plan made of what the
      identity queries printed (nothing for a failed one), the clock, and the
      commit message. */
  lemma RunCommandsFollowPlan(env: Env, config: Config.Config)
    ensures FollowsPlan(env, EarthquakeProcedure(env, config).trace,
                        Reported(env, 0), Reported(env, 1), Reported(env, 2), Seconds(env.clock), config.commitMessage)
  {
    var r := EarthquakeProcedure(env, config);
    var id := ReadIdentity(env);
    var branch, remote, email := Reported(env, 0), Reported(env, 1), Reported(env, 2);
    var queries := [Query(BRANCH_QUERY), Query(RemoteQuery(branch)), Query(EMAIL_QUERY)];
    if id.status.Done? && env.clock.Since? {
      var name := BranchName(branch, email, Seconds(env.clock));
      assert id.status.value == Identity(branch, remote, email) && id.trace == queries by {
        IdentityTrace(env);
      }
      assert r == SaveChanges(env, queries, name, remote, config.commitMessage) by {
        ProcedureUnfold(env, config);
      }
      PlanAfterIdentity(env, branch, remote, email, Seconds(env.clock), config.commitMessage);
    } else {
      assert r.trace == id.trace by {
        ProcedureUnfold(env, config);
      }
      PlanOfIdentity(env, Seconds(env.clock), config.commitMessage);
    }
  }

  /** The identity queries alone follow the plan, whatever comes after them. */
  lemma PlanOfIdentity(env: Env, epoch: nat, message: string)
    ensures FollowsPlan(env, ReadIdentity(env).trace, Reported(env, 0), Reported(env, 1), Reported(env, 2), epoch, message)
  {
    var t := ReadIdentity(env).trace;
    var queries := [Query(BRANCH_QUERY), Query(RemoteQuery(Reported(env, 0))), Query(EMAIL_QUERY)];
    assert Commands(t) == t && t <= queries by {
      IdentityQueries(env);
      IdentityPrefix(env);
    }
    ShortPrefixFollowsPlan(env, t, Reported(env, 0), Reported(env, 1), Reported(env, 2), epoch, message);
  }

  /** A trace whose commands are a prefix of the three identity queries
      follows the plan. */
  lemma ShortPrefixFollowsPlan(env: Env, t: seq<Action>, branch: string, remote: string, email: string,
                               epoch: nat, message: string)
    requires Commands(t) == t
    requires t <= [Query(BRANCH_QUERY), Query(RemoteQuery(branch)), Query(EMAIL_QUERY)]
    ensures FollowsPlan(env, t, branch, remote, email, epoch, message)
  {
    var queries := [Query(BRANCH_QUERY), Query(RemoteQuery(branch)), Query(EMAIL_QUERY)];
    var plan := Plan(branch, remote, email, epoch, false, message);
    assert queries <= plan;
    assert [] + t == t && [] + queries == queries;
    PrefixExtend([], t, queries, plan);
  }

  /** RunCommandsFollowPlan once the identity queries have succeeded. */
  lemma PlanAfterIdentity(env: Env, branch: string, remote: string, email: string, epoch: nat, message: string)
    ensures var queries := [Query(BRANCH_QUERY), Query(RemoteQuery(branch)), Query(EMAIL_QUERY)];
      FollowsPlan(env, SaveChanges(env, queries, BranchName(branch, email, epoch), remote, message).trace,
                  branch, remote, email, epoch, message)
  {
    var queries := [Query(BRANCH_QUERY), Query(RemoteQuery(branch)), Query(EMAIL_QUERY)];
    var name := BranchName(branch, email, epoch);
    IdentityCommands(branch);
    SaveChangesPrefix(env, queries, name, remote, message);
    forall dirty: bool
      ensures queries + SavePlan(name, remote, message, dirty) == Plan(branch, remote, email, epoch, dirty, message)
    {
    }
  }

  /** The identity queries are all git commands. */
  lemma IdentityCommands(branch: string)
    ensures var queries := [Query(BRANCH_QUERY), Query(RemoteQuery(branch)), Query(EMAIL_QUERY)];
      Commands(queries) == queries
  {
    var q1, q2, q3 := Query(BRANCH_QUERY), Query(RemoteQuery(branch)), Query(EMAIL_QUERY);
    assert RemoteQuery(branch)[0] != REV_PARSE[0];
    assert Commands([q1]) == [q1] by {
      assert [q1][..0] == [];
    }
    assert Commands([q1, q2]) == [q1, q2] by {
      assert [q1, q2][..1] == [q1];
    }
    assert [q1, q2, q3][..2] == [q1, q2];
  }

  /** The next command of the plan after the commands of `trace` is a spawn;
      once the status query has been answered, the plan is the one that
      answer selects. */
  ghost predicate NextIsSpawn(env: Env, trace: seq<Action>, branch: string, remote: string, email: string,
                              epoch: nat, message: string) {
    var c := Commands(trace);
    && (|c| < 5 ==>
          var p := Plan(branch, remote, email, epoch, false, message);
          |c| < |p| && p[|c|].Spawn?)
    && (|c| >= 5 ==>
          exists k :: 3 < k < |trace| && trace[k] == Query(STATUS_QUERY) && Info(env, k).Done? &&
            var p := Plan(branch, remote, email, epoch, Info(env, k).value != "", message);
            |c| < |p| && p[|c|].Spawn?)
  }

  /** In a plan, the checkout (index 3) and everything after the status query
      (index 4) are spawns. */
  lemma PlanSpawnAt(branch: string, remote: string, email: string, epoch: nat, dirty: bool, message: string, i: nat)
    requires i == 3 || 5 <= i < |Plan(branch, remote, email, epoch, dirty, message)|
    ensures Plan(branch, remote, email, epoch, dirty, message)[i].Spawn?
  {
  }

  /** A successful run ends with a spawn (the push), and a run that ends
      inside a lock check has halted there, at a point of the plan where the
      next command is a spawn: a lock check is never followed by a query or
      by nothing at all. */
  lemma LockChecksGuardSpawns(env: Env, config: Config.Config)
    ensures var r := EarthquakeProcedure(env, config);
      var t := r.trace;
      && (r.status.Done? ==> |t| > 0 && t[|t| - 1].Spawn?)
      && (!OutsideLockCheck(t) ==>
            r.status.Halted? &&
            NextIsSpawn(env, t, Reported(env, 0), Reported(env, 1), Reported(env, 2), Seconds(env.clock),
                        config.commitMessage))
  {
    var r := EarthquakeProcedure(env, config);
    var id := ReadIdentity(env);
    var branch, remote, email := Reported(env, 0), Reported(env, 1), Reported(env, 2);
    var queries := [Query(BRANCH_QUERY), Query(RemoteQuery(branch)), Query(EMAIL_QUERY)];
    if id.status.Done? && env.clock.Since? {
      var epoch := Seconds(env.clock);
      var name := BranchName(branch, email, epoch);
      assert id.status.value == Identity(branch, remote, email) && id.trace == queries by {
        IdentityTrace(env);
      }
      assert r == SaveChanges(env, queries, name, remote, config.commitMessage) by {
        ProcedureUnfold(env, config);
      }
      PendingAfterIdentity(env, branch, remote, email, epoch, config.commitMessage);
    } else {
      assert r.trace == id.trace && r.status.Halted? by {
        ProcedureUnfold(env, config);
      }
      IdentityGuarded(env);
    }
  }

  /** LockChecksGuardSpawns once the identity queries have succeeded. */
  lemma PendingAfterIdentity(env: Env, branch: string, remote: string, email: string, epoch: nat, message: string)
    ensures var queries := [Query(BRANCH_QUERY), Query(RemoteQuery(branch)), Query(EMAIL_QUERY)];
      var r := SaveChanges(env, queries, BranchName(branch, email, epoch), remote, message);
      && (r.status.Done? ==> |r.trace| > 0 && r.trace[|r.trace| - 1].Spawn?)
      && (!OutsideLockCheck(r.trace) ==> !r.status.Done? && NextIsSpawn(env, r.trace, branch, remote, email, epoch, message))
  {
    var queries := [Query(BRANCH_QUERY), Query(RemoteQuery(branch)), Query(EMAIL_QUERY)];
    var name := BranchName(branch, email, epoch);
    var r := SaveChanges(env, queries, name, remote, message);
    var c := Commands(r.trace);
    IdentityCommands(branch);
    SaveChangesPending(env, queries, name, remote, message);
    if !OutsideLockCheck(r.trace) {
      if |c| < 5 {
        PlanSpawnAt(branch, remote, email, epoch, false, message, |c|);
      } else {
        var k :| 3 < k < |r.trace| && r.trace[k] == Query(STATUS_QUERY) && Info(env, k).Done? &&
                 |c| < 3 + |SavePlan(name, remote, message, Info(env, k).value != "")|;
        var dirty := Info(env, k).value != "";
        assert |Plan(branch, remote, email, epoch, dirty, message)| == 3 + |SavePlan(name, remote, message, dirty)|;
        PlanSpawnAt(branch, remote, email, epoch, dirty, message, |c|);
      }
    }
  }

  /** Every top-level lock query of a run is followed by the spawn it guards:
      right after the probe, or right after the wait; only a run that stopped
      inside that lock check lacks the spawn, and then the spawn was the next
      command of the plan. */
  lemma LockCheckThenSpawn(env: Env, config: Config.Config, j: nat)
    requires j < |EarthquakeProcedure(env, config).trace|
    requires EarthquakeProcedure(env, config).trace[j] == Query(REV_PARSE)
    ensures var r := EarthquakeProcedure(env, config);
      var t := r.trace;
      || (j + 2 < |t| && t[j + 2].Spawn?)
      || (j + 3 < |t| && t[j + 2].AwaitLock? && t[j + 3].Spawn?)
      || (&& |t| <= j + 3
          && r.status.Halted?
          && NextIsSpawn(env, t, Reported(env, 0), Reported(env, 1), Reported(env, 2), Seconds(env.clock),
                         config.commitMessage))
  {
    var t := EarthquakeProcedure(env, config).trace;
    assert LockChecksContiguous(t) by {
      LockChecksUnbroken(env, config);
    }
    CheckEnds(t, j);
    LockChecksGuardSpawns(env, config);
  }

  /** Every git process exits (with any status) and prints valid UTF-8, and
      every wait for the lock returns. */
  ghost predicate Cooperative(env: Env) {
    && (forall k: nat :: env.reply(k).Exited? && Decode(env.reply(k).stdout).Some?)
    && (forall k: nat :: env.lockPresent(k) ==> WaitReturns(env.watch(k + 1)))
  }

  /** A run in a cooperative environment whose clock is past the epoch
      succeeds, whatever the queries print, empty answers included. */
  lemma CooperativeRunSucceeds(env: Env, config: Config.Config)
    requires Cooperative(env) && env.clock.Since?
    ensures EarthquakeProcedure(env, config).status.Done?
  {
    var r := EarthquakeProcedure(env, config);
    if !r.status.Done? {
      assert EndsAtFirstHalt(env, r.trace, r.status.reason) by {
        RunStopsAtFirstHalt(env, config);
      }
      var n := |r.trace| - 1;
      assert GuardedAt(env, r.trace, n) by {
        ProcedureGuarded(env, config);
      }
      CooperativeActionSettles(env, r.trace, n);
      assert false;
    }
  }

  /** In a cooperative environment no action the lock discipline allows stops
      a run: every query decodes, every spawn is waited for, and every wait
      for the lock follows a probe that found it and so returns. */
  lemma CooperativeActionSettles(env: Env, trace: seq<Action>, n: nat)
    requires Cooperative(env) && n < |trace| && GuardedAt(env, trace, n)
    ensures HaltOf(env, n, trace[n]).None?
  {
    var a := trace[n];
    assert env.reply(n).Exited? && Decode(env.reply(n).stdout).Some?;
    if a.AwaitLock? {
      assert env.lockPresent(n - 1);
      WaitReturnsIff(a.path, env.watch(n));
    }
  }

  /** On success the checkout is the fourth git command and the push, of the
      same branch to the remote the remote query printed, the last. */
  lemma SuccessfulRunEnds(env: Env, config: Config.Config)
    ensures var r := EarthquakeProcedure(env, config);
      var c := Commands(r.trace);
      r.status.Done? ==>
        && env.clock.Since?
        && Info(env, 0).Done? && Info(env, 1).Done? && Info(env, 2).Done?
        && var name := BranchName(Info(env, 0).value, Info(env, 2).value, env.clock.seconds);
           && 5 < |c|
           && c[3] == Spawn(CheckoutArgs(name))
           && c[|c| - 1] == Spawn(PushArgs(name, Info(env, 1).value))
  {
    var r := EarthquakeProcedure(env, config);
    if r.status.Done? {
      SuccessfulRunOrder(env, config);
      var k :| 3 < k < |r.trace| && r.trace[k] == Query(STATUS_QUERY) && Info(env, k).Done? &&
               Commands(r.trace) == Plan(Info(env, 0).value, Info(env, 1).value, Info(env, 2).value,
                                         env.clock.seconds, Info(env, k).value != "", config.commitMessage);
      PlanEnds(Info(env, 0).value, Info(env, 1).value, Info(env, 2).value,
               env.clock.seconds, Info(env, k).value != "", config.commitMessage);
    }
  }

  /** An empty remote and an empty email are used as they are: the run goes
      on, the branch name has nothing between its two dashes, and the push
      names the empty remote. */
  lemma EmptyRemoteAndEmailUsed(env: Env, config: Config.Config)
    requires Cooperative(env) && env.clock.Since?
    requires Info(env, 1) == Done("") && Info(env, 2) == Done("")
    ensures var r := EarthquakeProcedure(env, config);
      var c := Commands(r.trace);
      var name := "earthquake/" + Info(env, 0).value + "--" + Decimal(env.clock.seconds);
      && r.status.Done?
      && 5 < |c|
      && c[3] == Spawn(["checkout", "-b", name])
      && c[|c| - 1] == Spawn(["push", "-u", "", name])
  {
    CooperativeRunSucceeds(env, config);
    EmptyValuesPassedOn(env, config);
  }

  lemma EmptyValuesPassedOn(env: Env, config: Config.Config)
    requires Info(env, 1) == Done("") && Info(env, 2) == Done("")
    ensures var r := EarthquakeProcedure(env, config);
      var c := Commands(r.trace);
      r.status.Done? ==>
        && Info(env, 0).Done? && env.clock.Since?
        && var name := "earthquake/" + Info(env, 0).value + "--" + Decimal(env.clock.seconds);
           && 5 < |c|
           && c[3] == Spawn(["checkout", "-b", name])
           && c[|c| - 1] == Spawn(["push", "-u", "", name])
  {
    var r := EarthquakeProcedure(env, config);
    if r.status.Done? {
      SuccessfulRunEnds(env, config);
      EmptyEmailCommands(Commands(r.trace), Info(env, 0).value, env.clock.seconds);
    }
  }

  /** With an empty email and remote the checkout and push name
      `earthquake/<branch>--<epoch>`, and the push names the empty remote. */
  lemma EmptyEmailCommands(c: seq<Action>, branch: string, epoch: nat)
    requires 5 < |c|
    requires c[3] == Spawn(CheckoutArgs(BranchName(branch, "", epoch)))
    requires c[|c| - 1] == Spawn(PushArgs(BranchName(branch, "", epoch), ""))
    ensures var name := "earthquake/" + branch + "--" + Decimal(epoch);
      c[3] == Spawn(["checkout", "-b", name]) && c[|c| - 1] == Spawn(["push", "-u", "", name])
  {
    assert "earthquake/" + branch + "-" + "" + "-" == "earthquake/" + branch + "--";
  }
}

=== FILE: text.dfy ===
/**
 Text helpers used by the command runner and the procedure: Rust's
 `char::is_whitespace` and `str::trim_end`, and the decimal rendering of an
 unsigned integer performed by `format!("{}", n)`.
 */
module Text {

  /** `char::is_whitespace`: the characters with the Unicode White_Space property. */
  predicate IsWhitespace(c: char) {
    || c == ' '
    || ('\U{0009}' <= c <= '\U{000D}')
    || c == '\U{0085}'
    || c == '\U{00A0}'
    || c == '\U{1680}'
    || ('\U{2000}' <= c <= '\U{200A}')
    || c == '\U{2028}'
    || c == '\U{2029}'
    || c == '\U{202F}'
    || c == '\U{205F}'
    || c == '\U{3000}'
  }

  /** Every character of `s` is whitespace. */
  predicate AllWhitespace(s: string) {
    forall i :: 0 <= i < |s| ==> IsWhitespace(s[i])
  }

  /** `s` is empty or does not end in whitespace. */
  predicate EndsClean(s: string) {
    |s| == 0 || !IsWhitespace(s[|s| - 1])
  }

  /** `str::trim_end`: drops every trailing whitespace character (not only one
      line terminator). The result is the prefix of `s` that ends clean and is
      followed only by whitespace. */
  function TrimEnd(s: string): (r: string)
    ensures r <= s
    ensures EndsClean(r)
    ensures AllWhitespace(s[|r|..])
  {
    if |s| == 0 then s
    else if IsWhitespace(s[|s| - 1]) then
      var r := TrimEnd(s[..|s| - 1]);
      assert s[|r|..] == s[..|s| - 1][|r|..] + [s[|s| - 1]];
      r
    else s
  }

  /** The three properties of `TrimEnd` determine its result: any prefix of `s`
      that ends clean and is followed only by whitespace is that result. */
  lemma TrimEndUnique(s: string, p: string)
    requires p <= s && EndsClean(p) && AllWhitespace(s[|p|..])
    ensures p == TrimEnd(s)
  {
    var r := TrimEnd(s);
  }

  /** Trimming is idempotent. */
  lemma TrimEndIdempotent(s: string)
    ensures TrimEnd(TrimEnd(s)) == TrimEnd(s)
  {
    var r := TrimEnd(s);
    assert r[|r|..] == [];
    TrimEndUnique(r, r);
  }

  /** Appending whitespace never changes the trimmed text. */
  lemma TrimEndTrailingWhitespace(s: string, ws: string)
    requires AllWhitespace(ws)
    ensures TrimEnd(s + ws) == TrimEnd(s)
  {
    var r := TrimEnd(s);
    var t := s + ws;
    assert r <= t;
    assert t[|r|..] == s[|r|..] + ws;
    TrimEndUnique(t, r);
  }

  /** Text that already ends clean is returned unchanged. */
  lemma TrimEndClean(s: string)
    requires EndsClean(s)
    ensures TrimEnd(s) == s
  {
    assert s[|s|..] == [];
    TrimEndUnique(s, s);
  }

  predicate IsDigit(c: char) {
    '0' <= c <= '9'
  }

  predicate AllDigits(s: string) {
    forall i :: 0 <= i < |s| ==> IsDigit(s[i])
  }

  /** A canonical decimal numeral: non-empty, digits only, no leading zero
      unless it is "0" itself. */
  predicate IsCanonicalDecimal(s: string) {
    && |s| > 0
    && AllDigits(s)
    && (s[0] == '0' ==> |s| == 1)
  }

  function DigitChar(d: nat): (c: char)
    requires d < 10
    ensures IsDigit(c)
  {
    ('0' as int + d) as char
  }

  /** `format!("{}", n)` for an unsigned integer. */
  function Decimal(n: nat): (s: string)
    ensures IsCanonicalDecimal(s)
  {
    if n < 10 then [DigitChar(n)]
    else
      var s := Decimal(n / 10) + [DigitChar(n % 10)];
      assert s[0] == Decimal(n / 10)[0];
      s
  }

  /** The value denoted by a string of decimal digits. */
  function DecimalValue(s: string): nat
    requires AllDigits(s)
  {
    if |s| == 0 then 0
    else
      assert IsDigit(s[|s| - 1]);
      DecimalValue(s[..|s| - 1]) * 10 + (s[|s| - 1] as int - '0' as int)
  }

  /** Round trip: reading back the rendered numeral yields the number. */
  lemma {:induction false} DecimalValueOfDecimal(n: nat)
    ensures DecimalValue(Decimal(n)) == n
  {
    if n >= 10 {
      var s := Decimal(n);
      assert s[..|s| - 1] == Decimal(n / 10);
      DecimalValueOfDecimal(n / 10);
    }
  }

  /** Distinct numbers have distinct renderings. */
  lemma DecimalInjective(m: nat, n: nat)
    requires Decimal(m) == Decimal(n)
    ensures m == n
  {
    DecimalValueOfDecimal(m);
    DecimalValueOfDecimal(n);
  }
}

=== FILE: utf8.dfy ===
/**
 Strict UTF-8 decoding of a process's captured standard output, as performed by
 Rust's `String::from_utf8`: overlong forms, surrogate code points, code points
 above U+10FFFF and truncated sequences are all rejected. Decoding is paired with
 an encoder so that the decoder's behaviour on well-formed text can be stated as
 a round trip.
 */
module Utf8 {

  import opened Wrappers

  type byte = x: int | 0 <= x < 256

  /** A continuation byte `10xxxxxx`. */
  predicate IsContinuation(b: byte) {
    0x80 <= b <= 0xBF
  }

  /** Allowed range of the second byte of a three-byte sequence led by `lead`
      (excludes overlong forms after E0 and surrogates after ED). */
  predicate SecondOfThree(lead: byte, b: byte) {
    if lead == 0xE0 then 0xA0 <= b <= 0xBF
    else if lead == 0xED then 0x80 <= b <= 0x9F
    else IsContinuation(b)
  }

  /** Allowed range of the second byte of a four-byte sequence led by `lead`
      (excludes overlong forms after F0 and code points above U+10FFFF after F4). */
  predicate SecondOfFour(lead: byte, b: byte) {
    if lead == 0xF0 then 0x90 <= b <= 0xBF
    else if lead == 0xF4 then 0x80 <= b <= 0x8F
    else IsContinuation(b)
  }

  /** Decodes the scalar value at the front of `b`, with the number of bytes it occupies. */
  function DecodeFirst(b: seq<byte>): (r: Option<(char, nat)>)
    requires |b| > 0
    ensures r.Some? ==> 1 <= r.value.1 <= 4 && r.value.1 <= |b|
    ensures r.Some? ==> (r.value.1 == 1 <==> b[0] < 0x80)
  {
    var b0 := b[0];
    if b0 < 0x80 then
      Some((b0 as char, 1))
    else if 0xC2 <= b0 <= 0xDF then
      if |b| >= 2 && IsContinuation(b[1]) then
        Some((((b0 as int - 0xC0) * 64 + (b[1] as int - 0x80)) as char, 2))
      else None
    else if 0xE0 <= b0 <= 0xEF then
      if |b| >= 3 && SecondOfThree(b0, b[1]) && IsContinuation(b[2]) then
        var cp := (b0 as int - 0xE0) * 4096 + (b[1] as int - 0x80) * 64 + (b[2] as int - 0x80);
        assert cp < 0xD800 || 0xE000 <= cp < 0x10000;
        Some((cp as char, 3))
      else None
    else if 0xF0 <= b0 <= 0xF4 then
      if |b| >= 4 && SecondOfFour(b0, b[1]) && IsContinuation(b[2]) && IsContinuation(b[3]) then
        var cp := (b0 as int - 0xF0) * 262144 + (b[1] as int - 0x80) * 4096 + (b[2] as int - 0x80) * 64 + (b[3] as int - 0x80);
        assert 0x10000 <= cp < 0x110000;
        Some((cp as char, 4))
      else None
    else
      None
  }

  /** `String::from_utf8`: the decoded text, or None when `b` is not well-formed UTF-8. */
  function Decode(b: seq<byte>): (r: Option<string>)
    ensures r.Some? ==> |r.value| <= |b| <= 4 * |r.value|
    ensures r.Some? && |b| > 0 ==> DecodeFirst(b).Some? && r.value[0] == DecodeFirst(b).value.0
    decreases |b|
  {
    if |b| == 0 then Some([])
    else
      match DecodeFirst(b)
      case None => None
      case Some((c, n)) =>
        match Decode(b[n..])
        case None => None
        case Some(rest) => Some([c] + rest)
  }

  /** The UTF-8 encoding of one scalar value, shortest form. */
  function EncodeChar(c: char): (r: seq<byte>)
    ensures 1 <= |r| <= 4
  {
    var cp := c as int;
    if cp < 0x80 then [cp]
    else if cp < 0x800 then [0xC0 + cp / 64, 0x80 + cp % 64]
    else if cp < 0x10000 then [0xE0 + cp / 4096, 0x80 + (cp / 64) % 64, 0x80 + cp % 64]
    else [0xF0 + cp / 262144, 0x80 + (cp / 4096) % 64, 0x80 + (cp / 64) % 64, 0x80 + cp % 64]
  }

  /** The UTF-8 encoding of a string. */
  function Encode(s: string): (r: seq<byte>)
    ensures |s| <= |r| <= 4 * |s|
  {
    if |s| == 0 then [] else EncodeChar(s[0]) + Encode(s[1..])
  }

  /** Decoding the front of an encoded character recovers the character and its length. */
  lemma DecodeFirstEncodeChar(c: char, rest: seq<byte>)
    ensures DecodeFirst(EncodeChar(c) + rest) == Some((c, |EncodeChar(c)|))
  {
    var cp := c as int;
    if cp < 0x80 {
    } else if cp < 0x800 {
      DecodeTwo(c, rest);
    } else if cp < 0x10000 {
      DecodeThree(c, rest);
    } else {
      DecodeFour(c, rest);
    }
  }

  lemma DecodeTwo(c: char, rest: seq<byte>)
    requires 0x80 <= c as int < 0x800
    ensures DecodeFirst(EncodeChar(c) + rest) == Some((c, 2))
  {
    var cp := c as int;
    var b := EncodeChar(c) + rest;
    var hi, lo := cp / 64, cp % 64;
    assert cp == hi * 64 + lo;
    assert b[0] == 0xC0 + hi && b[1] == 0x80 + lo;
    assert 2 <= hi < 32;
  }

  lemma DecodeThree(c: char, rest: seq<byte>)
    requires 0x800 <= c as int < 0x10000
    ensures DecodeFirst(EncodeChar(c) + rest) == Some((c, 3))
  {
    var cp := c as int;
    var b := EncodeChar(c) + rest;
    var q := cp / 64;
    var x, y, z := cp / 4096, q % 64, cp % 64;
    assert cp == q * 64 + z;
    assert q / 64 == x by { assert cp / 4096 == (cp / 64) / 64; }
    assert q == x * 64 + y;
    assert b[0] == 0xE0 + x && b[1] == 0x80 + y && b[2] == 0x80 + z;
    assert cp == x * 4096 + y * 64 + z;
    assert x == 0 ==> y >= 32;
    assert x == 13 ==> y < 32;
  }

  lemma DecodeFour(c: char, rest: seq<byte>)
    requires 0x10000 <= c as int
    ensures DecodeFirst(EncodeChar(c) + rest) == Some((c, 4))
  {
    var cp := c as int;
    var b := EncodeChar(c) + rest;
    var q := cp / 64;
    var p := cp / 4096;
    var w, x, y, z := cp / 262144, p % 64, q % 64, cp % 64;
    assert cp == q * 64 + z;
    assert p == q / 64 by { assert cp / 4096 == (cp / 64) / 64; }
    assert q == p * 64 + y;
    assert w == p / 64 by { assert cp / 262144 == (cp / 4096) / 64; }
    assert p == w * 64 + x;
    assert b[0] == 0xF0 + w && b[1] == 0x80 + x && b[2] == 0x80 + y && b[3] == 0x80 + z;
    assert cp == w * 262144 + x * 4096 + y * 64 + z;
    assert w == 0 ==> x >= 16;
    assert w == 4 ==> x < 16;
  }

  /** Round trip: every string survives encoding followed by strict decoding. */
  lemma {:induction false} DecodeEncode(s: string)
    ensures Decode(Encode(s)) == Some(s)
  {
    if |s| > 0 {
      var e := EncodeChar(s[0]);
      var tail := Encode(s[1..]);
      assert Encode(s) == e + tail;
      DecodeFirstEncodeChar(s[0], tail);
      assert (e + tail)[|e|..] == tail;
      DecodeEncode(s[1..]);
      assert [s[0]] + s[1..] == s;
    }
  }

  /** A byte that never occurs in well-formed UTF-8 (0xFF) makes decoding fail,
      whatever well-formed text precedes it and whatever follows it. */
  lemma {:induction false} InvalidByteRejected(prefix: string, rest: seq<byte>)
    ensures Decode(Encode(prefix) + [0xFF] + rest) == None
  {
    var bad := [0xFF] + rest;
    assert Encode(prefix) + [0xFF] + rest == Encode(prefix) + bad;
    if |prefix| > 0 {
      var tail := Encode(prefix[1..]);
      assert Encode(prefix) + bad == EncodeChar(prefix[0]) + (tail + bad);
      InvalidByteRejected(prefix[1..], rest);
      assert tail + [0xFF] + rest == tail + bad;
      DecodeAfterChar(prefix[0], tail + bad);
    } else {
      assert Encode(prefix) + bad == bad;
    }
  }

  /** Decoding after an encoded character succeeds exactly when decoding the
      remainder does, and then puts the character in front. */
  lemma DecodeAfterChar(c: char, x: seq<byte>)
    ensures Decode(EncodeChar(c) + x) == if Decode(x).Some? then Some([c] + Decode(x).value) else None
  {
    var e := EncodeChar(c);
    DecodeFirstEncodeChar(c, x);
    assert (e + x)[|e|..] == x;
  }

  /** Splitting a number into its quotient and remainder by 64. */
  lemma DivMod64(h: int, l: int)
    requires 0 <= h && 0 <= l < 64
    ensures (h * 64 + l) / 64 == h && (h * 64 + l) % 64 == l
  {
  }

  lemma EncodeTwoBytes(h: int, l: int)
    requires 2 <= h < 32 && 0 <= l < 64
    ensures EncodeChar((h * 64 + l) as char) == [0xC0 + h, 0x80 + l]
  {
    DivMod64(h, l);
  }

  lemma EncodeThreeBytes(x: int, y: int, z: int)
    requires 0 <= x < 16 && 0 <= y < 64 && 0 <= z < 64
    requires var cp := x * 4096 + y * 64 + z; 0x800 <= cp && (cp < 0xD800 || 0xE000 <= cp)
    ensures EncodeChar((x * 4096 + y * 64 + z) as char) == [0xE0 + x, 0x80 + y, 0x80 + z]
  {
    var q := x * 64 + y;
    var cp := q * 64 + z;
    assert cp == x * 4096 + y * 64 + z;
    DivMod64(q, z);
    DivMod64(x, y);
    assert cp / 4096 == x by { assert cp / 4096 == (cp / 64) / 64; }
  }

  lemma EncodeFourBytes(w: int, x: int, y: int, z: int)
    requires 0 <= w < 5 && 0 <= x < 64 && 0 <= y < 64 && 0 <= z < 64
    requires var cp := w * 262144 + x * 4096 + y * 64 + z; 0x10000 <= cp < 0x110000
    ensures EncodeChar((w * 262144 + x * 4096 + y * 64 + z) as char) == [0xF0 + w, 0x80 + x, 0x80 + y, 0x80 + z]
  {
    var p := w * 64 + x;
    var q := p * 64 + y;
    var cp := q * 64 + z;
    assert cp == w * 262144 + x * 4096 + y * 64 + z;
    DivMod64(q, z);
    DivMod64(p, y);
    DivMod64(w, x);
    assert cp / 4096 == p by { assert cp / 4096 == (cp / 64) / 64; }
    assert cp / 262144 == w by { assert cp / 262144 == (cp / 4096) / 64; }
  }

  /** Encoding a decoded character gives back exactly the bytes it was decoded
      from: the decoder accepts the shortest form only. */
  lemma EncodeDecodeFirst(b: seq<byte>)
    requires |b| > 0 && DecodeFirst(b).Some?
    ensures EncodeChar(DecodeFirst(b).value.0) == b[..DecodeFirst(b).value.1]
  {
    var b0 := b[0] as int;
    if 0xC2 <= b0 <= 0xDF {
      EncodeTwoBytes(b0 - 0xC0, b[1] as int - 0x80);
      assert b[..2] == [b[0], b[1]];
    } else if 0xE0 <= b0 <= 0xEF {
      EncodeThreeBytes(b0 - 0xE0, b[1] as int - 0x80, b[2] as int - 0x80);
      assert b[..3] == [b[0], b[1], b[2]];
    } else if 0xF0 <= b0 <= 0xF4 {
      EncodeFourBytes(b0 - 0xF0, b[1] as int - 0x80, b[2] as int - 0x80, b[3] as int - 0x80);
      assert b[..4] == [b[0], b[1], b[2], b[3]];
    }
  }

  /** Round trip in the other direction: whatever the decoder accepts is the
      encoding of what it returns, so only shortest-form, non-surrogate,
      in-range, complete sequences are accepted. */
  lemma {:induction false} EncodeDecode(b: seq<byte>)
    ensures Decode(b).Some? ==> Encode(Decode(b).value) == b
    decreases |b|
  {
    if |b| > 0 && Decode(b).Some? {
      DecodeUnfold(b);
      var (c, n) := DecodeFirst(b).value;
      EncodeDecodeFirst(b);
      EncodeDecode(b[n..]);
      EncodeJoin(b, n, c, Decode(b[n..]).value);
    }
  }

  /** A non-empty input is accepted when its first character and the rest are. */
  lemma DecodeUnfold(b: seq<byte>)
    requires |b| > 0 && Decode(b).Some?
    ensures DecodeFirst(b).Some?
    ensures Decode(b[DecodeFirst(b).value.1..]).Some?
    ensures Decode(b).value == [DecodeFirst(b).value.0] + Decode(b[DecodeFirst(b).value.1..]).value
  {
  }

  /** The encodings of a first character and of the rest make up the whole. */
  lemma EncodeJoin(b: seq<byte>, n: nat, c: char, rest: string)
    requires n <= |b| && EncodeChar(c) == b[..n] && Encode(rest) == b[n..]
    ensures Encode([c] + rest) == b
  {
    var s := [c] + rest;
    assert s[0] == c && s[1..] == rest;
    assert b[..n] + b[n..] == b;
  }
}

=== FILE: wrappers.dfy ===
/** The optional value shared by the other modules. */
module Wrappers {

  datatype Option<+T> = None | Some(value: T)
}
